=== FILE: README.md ===
# BlinkShop passwordless login and upload gate, modelled in Dafny

BlinkShop lets sellers create listings ("drops") from an iOS Shortcut. Sellers sign in with magic links.
Under the thin handlers over Supabase and Cloudinary sit five small decision procedures. This project models them as pure Dafny functions and proves what they promise:

- **The freshness ledger** (`authenticated_users`). This is a map from email to `(authenticated_at, last_used_at)`.
  - `check-auth` answers whether the last full login lies within 30 days. On success it moves `last_used_at`.
  - `record-auth` overwrites both timestamps with `now`, keyed on email.
- **The headless upload gate** (`shortcut-upload`). It runs these checks in order:
  1. email present;
  2. one to three images;
  3. authentication, by a shared secret or by check-auth, issuing a magic link on denial;
  4. per-image size and mime type;
  5. total size;
  6. upload.

  Its helpers `processBase64Data` and `sanitizeFilename` are modelled too.
- **The listing validator** (`create-drop`). It checks the method, then the body fields, then the bearer header, then the identity-provider lookup. It then builds the normalised draft row.
- **The confirmation page** (`auth-confirm`). It takes the fragment tokens, establishes a session, records the login, and settles `loading` into `success` or `error` once.

Calls to other services appear as oracle inputs. These are the store's errors, the identity provider's answers, `signInWithOtp`, Cloudinary, the check-auth `fetch` and the base64 decoder's output length. The gate and the confirmation page also return the calls they make, in order. This makes "exactly one magic link" and "never consults check-auth" statements about the result.

Time is an integer count of milliseconds. One day is `86_400_000` and the window is `30` days.

Files, one module each:

- `js.dfy` (`Js`): the JavaScript primitives used: truthiness, `startsWith`, `endsWith`, `indexOf`, `includes`, `replace` with a string pattern, and `trim`.
- `http.dfy` (`Http`): the `Bearer ` header prefix test and the token after it, shared by the handlers.
- `ledger.dfy` (`Ledger`): the table and its three store operations.
- `check_auth.dfy` (`CheckAuth`): the check-auth handler.
- `record_auth.dfy` (`RecordAuth`): the record-auth handler.
- `upload_helpers.dfy` (`UploadHelpers`): `CONFIG`, `sanitizeFilename` and `processBase64Data`.
- `shortcut_upload.dfy` (`ShortcutUpload`): the gate.
- `create_drop.dfy` (`CreateDrop`): the create-drop handler.
- `auth_confirm.dfy` (`AuthConfirm`): the confirmation page.
- `login_flow.dfy` (`LoginFlow`): properties across endpoints, such as record then check, the gate over the ledger, and the scenarios.

Where the code and its own comment disagree, the model follows the code:

- check-auth's comment speaks of "30 days of inactivity". The query compares only `authenticated_at`, so the window runs from the last full login, not from the last use. `CheckAuth.ChecksNeverExtendWindow` proves that no number of successful checks moves it.
- record-auth requires only that the header start with `Bearer `. The token is never compared with the email (`RecordAuth.AnyBearerTokenPasses`).
- The confirmation page tolerates a record-auth reply that is not ok, but a record-auth `fetch` that rejects throws into the page's `catch`, and the page shows `error` although the session was established (`AuthConfirm.RecordUnreachableFails`). So recording is non-fatal only when record-auth answers.
- `sanitizeFilename` is defined in the upload route but never called there. It is modelled for its own contract. It is not idempotent, because its first filter removes the `_` that an earlier pass wrote in place of `..`.

## Model

| member | source | states |
|---|---|---|
| Js.IndexOf | app/api/shortcut-upload/route.ts:57-59 | the result is the first position where the pattern occurs, or -1 exactly when it occurs nowhere |
| Js.ReplaceFirst | app/api/shortcut-upload/route.ts:110 | a pattern that does not occur leaves the string unchanged; a string starting with the pattern has that prefix replaced |
| Js.Trim | netlify/functions/create-drop.js:96-103 | the result is a slice of the input, only whitespace was cut from either end, and it neither starts nor ends with whitespace |
| Http.BearerToken | app/api/shortcut-upload/route.ts:109-110 | the token is everything after the `Bearer ` prefix: the prefix followed by the token gives back the header (create-drop strips it the same way) |
| Js.TrimIdempotent | netlify/functions/create-drop.js:96-103 | trimming a trimmed string changes nothing |
| Ledger.Cutoff | app/api/check-auth/route.ts:10-25 | the cutoff lies exactly 30 days of 86,400,000 ms before `now` |
| Ledger.FindFreshMonotone | app/api/check-auth/route.ts:27-32 | a row the select finds under some cutoff is found, the same row, under every earlier cutoff |
| Ledger.TouchLastUsed | app/api/check-auth/route.ts:41-45 | only `last_used_at` of that email's row changes; the key set and every other row stay as they were |
| Ledger.TouchKeepsFreshness | app/api/check-auth/route.ts:27-45 | the `last_used_at` update never changes whether the select finds a fresh row, for any email and cutoff, and other emails' results are identical |
| Ledger.Upsert | app/api/record-auth/route.ts:30-42 | the email gains exactly one row equal to the new one, replacing any old row; other rows are unchanged |
| Ledger.UpsertThenFind | app/api/record-auth/route.ts:30-42 | after an upsert the select finds the new row exactly when its `authenticated_at` meets the cutoff, whatever row was there before |
| CheckAuth.Check | app/api/check-auth/route.ts:12-51 | the 400 status comes exactly when the email is missing, and then nothing is written. Otherwise the answer is authenticated iff the query succeeds and the row is fresh. On success it returns the row's previous `last_used_at` and sets that row's `last_used_at` to `now` with `authenticated_at` kept. Any other answer leaves the table unchanged |
| CheckAuth.MissingAndStaleAlike | app/api/check-auth/route.ts:34-39 | a missing row and a stale row give the identical `authenticated: false` answer, and the stale row is not touched |
| CheckAuth.WindowBoundaryInclusive | app/api/check-auth/route.ts:24-31 | a login exactly 30 days old still counts; one a millisecond older does not |
| CheckAuth.ChecksKeepLogins | app/api/check-auth/route.ts:41-45 | after any sequence of checks the table has the same emails and every `authenticated_at` is unchanged |
| CheckAuth.ChecksNeverExtendWindow | app/api/check-auth/route.ts:24-45 | after any sequence of checks, freshness at any time is decided by the table as it was before them |
| RecordAuth.Record | app/api/record-auth/route.ts:13-55 | a missing email gives 400, then a non-`Bearer` header gives 401. The login is recorded iff the email is present, the header has the prefix and the upsert succeeds. Then the row becomes `(now, now)`; otherwise nothing is written. Only the 200 body has a `success` field |
| RecordAuth.EmailBeforeHeader | app/api/record-auth/route.ts:13-27 | a request missing both the email and the header gets 400, not 401 |
| RecordAuth.StoreErrorIs500 | app/api/record-auth/route.ts:44-50 | an upsert error gives 500, a body without `success`, and an unchanged table |
| RecordAuth.AnyBearerTokenPasses | app/api/record-auth/route.ts:21-27 | two requests differing only in the token after `Bearer ` get identical results |
| RecordAuth.RecordOverwrites | app/api/record-auth/route.ts:30-42 | after a record, the email has exactly one row `(now, now)` whatever was there before, and other emails keep theirs |
| RecordAuth.RecordTwiceIsLatest | app/api/record-auth/route.ts:30-42 | recording an email twice leaves the same table as recording it once at the later time |
| UploadHelpers.KeepFilenameChars | app/api/shortcut-upload/route.ts:32 | only characters of `[a-zA-Z0-9\-.]` survive, each allowed character keeps its exact count and every other character is gone, and a name made only of allowed characters is kept whole |
| UploadHelpers.KeepFilenameCharsConcat | app/api/shortcut-upload/route.ts:32 | the filter distributes over concatenation, so the surviving characters keep their order |
| UploadHelpers.CollapseCounts | app/api/shortcut-upload/route.ts:33 | underscores never decrease, and the dots plus twice the underscores are conserved: each `_` written uses up two dots |
| UploadHelpers.CollapseConcat | app/api/shortcut-upload/route.ts:33 | the left-to-right replacement splits at any join that cannot form `..`: the result for the whole is the results for the parts, joined |
| UploadHelpers.CollapseDotRun | app/api/shortcut-upload/route.ts:33 | a run of k dots becomes k/2 underscores (rounded down), followed by one dot when k is odd |
| UploadHelpers.CollapseKeepsOtherChars | app/api/shortcut-upload/route.ts:33 | every character other than `.` and `_` keeps its count |
| UploadHelpers.Truncate | app/api/shortcut-upload/route.ts:34 | the result is a prefix of the input: the whole input when it fits, and otherwise exactly the first 100 characters |
| UploadHelpers.SanitizeFilename | app/api/shortcut-upload/route.ts:30-35 | the result has at most 100 characters, all in `[A-Za-z0-9.\-_]`, and never two dots in a row |
| UploadHelpers.CollapseKeepsSafe | app/api/shortcut-upload/route.ts:33 | replacing `..` by `_` brings in no character other than `_` |
| UploadHelpers.CollapseNoDotPair | app/api/shortcut-upload/route.ts:33 | after the replacement no two dots are adjacent |
| UploadHelpers.CollapseIdentity | app/api/shortcut-upload/route.ts:33 | a string without `..` is left unchanged by the replacement |
| UploadHelpers.SanitizeFixpoint | app/api/shortcut-upload/route.ts:30-35 | a name of at most 100 characters from `[a-zA-Z0-9\-.]` without `..` is its own sanitized form |
| UploadHelpers.PrefixBefore | app/api/shortcut-upload/route.ts:44-46 | the result is the longest prefix free of the delimiter: the next character, if any, is the delimiter |
| UploadHelpers.SplitHeader | app/api/shortcut-upload/route.ts:44 | the header is the maximal comma-free prefix; the data part is absent iff there is no comma, and is otherwise the maximal comma-free text after the first comma, ending at the second comma or the end |
| UploadHelpers.MimeMatchStart | app/api/shortcut-upload/route.ts:46 | the result is the leftmost position where `data:` is followed by a character other than `;`, or -1 exactly when there is none |
| UploadHelpers.MimeCapture | app/api/shortcut-upload/route.ts:46 | there is a capture iff some `data:` is followed by a non-`;` character; it is then taken at the leftmost such place, runs to the next `;` or the end, is non-empty and holds no `;` |
| UploadHelpers.ProcessBase64Spec | app/api/shortcut-upload/route.ts:38-62 | processing fails exactly for a data URL without a comma; otherwise the extension is the one the mime type selects, and for a data URL the size is that of the payload between the first comma and the second comma (or the end) and the mime type is the captured one or `image/jpeg` |
| UploadHelpers.PlainBase64IsJpeg | app/api/shortcut-upload/route.ts:38-61 | a string without a `data:` prefix is taken as `image/jpeg` with extension `.jpg`, decoded whole |
| UploadHelpers.DataUrlWithoutComma | app/api/shortcut-upload/route.ts:43-53 | a data URL with no comma cannot be processed, because its payload is undefined |
| UploadHelpers.DataUrlMime | app/api/shortcut-upload/route.ts:43-50 | for `data:<m>;…` or `data:<m>,…`, the mime type is exactly `m` and the size is that of the payload between the first comma and the second comma (or the end) |
| UploadHelpers.AllowedMimeExtensions | app/api/shortcut-upload/route.ts:55-59 | jpeg, png, gif and webp each map to their own extension |
| UploadHelpers.ExtensionOf | app/api/shortcut-upload/route.ts:55-59 | the extension is always one of four. It is `.png` exactly when the type mentions `png`; otherwise `gif` wins over `webp`, so a type mentioning both gets `.gif`; `.webp` needs `webp` without `png` or `gif`; and it is `.jpg` exactly when the type contains none of the three |
| UploadHelpers.ExtensionNamedInType | app/api/shortcut-upload/route.ts:55-59 | any extension other than `.jpg` is named, without its dot, inside the mime type |
| ShortcutUpload.CollectImages | app/api/shortcut-upload/route.ts:81-86 | there are never more images than form entries, and none exactly when no entry has a `file…` key and a string value |
| ShortcutUpload.CollectImagesAppend | app/api/shortcut-upload/route.ts:81-86 | one more form entry appends its string value iff its key starts with `file` and its value is a string |
| ShortcutUpload.CollectImagesMembers | app/api/shortcut-upload/route.ts:81-86 | a string is collected iff some entry with a `file…` key and a string value carries it |
| ShortcutUpload.CollectImagesLoop | app/api/shortcut-upload/route.ts:81-86 | the pushing loop yields exactly the in-order selection of image entries |
| ShortcutUpload.FaultOf | app/api/shortcut-upload/route.ts:153-186 | an image passes iff it was processed, is at most 5 MiB and has an allowed mime type; it is unreadable exactly when processing failed; it is too large exactly when it was processed and exceeds 5 MiB; the format error comes only for an image within the size limit |
| ShortcutUpload.Scan | app/api/shortcut-upload/route.ts:153-186 | a fault carries a 1-based index within the images; otherwise there is one processed file per image and each is within 5 MiB with an allowed mime type |
| ShortcutUpload.ValidateImages | app/api/shortcut-upload/route.ts:150-193 | an accepted set has one file per image, each within 5 MiB with an allowed mime type, and a total of at most 15 MiB; a rejection names an image that exists |
| ShortcutUpload.ScanReportsFirstFault | app/api/shortcut-upload/route.ts:153-170 | a fault names the 1-based index of the first refused image and its first failing check; otherwise every image passed and its processed form is kept, in order |
| ShortcutUpload.ScanFaultsIffSomeFault | app/api/shortcut-upload/route.ts:153-170 | the scan stops with a fault iff some image is refused |
| ShortcutUpload.CheckImages | app/api/shortcut-upload/route.ts:150-193 | the route's loop with its early returns and running total reaches the same verdict as the per-image scan followed by the total-size check |
| ShortcutUpload.Authenticate | app/api/shortcut-upload/route.ts:105-120 | with a `Bearer` header no call is made and access is granted iff the token equals the secret, so an unset secret denies every token; without one, check-auth is called once for the email and its reply decides, an unreachable check-auth being an outcome of its own |
| ShortcutUpload.Upload | app/api/shortcut-upload/route.ts:64-257 | a missing email gives 400 and no call at all. Exactly one magic link is issued on a denial and none otherwise. Success comes only after a Cloudinary upload was made, and an image error comes with no upload |
| ShortcutUpload.CountCheckedBeforeAuth | app/api/shortcut-upload/route.ts:91-103 | zero images or more than three are refused with no call to check-auth, the magic-link service or Cloudinary |
| ShortcutUpload.FreshnessOnlyWithoutBearer | app/api/shortcut-upload/route.ts:105-120 | check-auth is consulted iff the request reaches authentication without a `Bearer` header |
| ShortcutUpload.BearerComparedExactly | app/api/shortcut-upload/route.ts:109-111 | with a `Bearer` header the request is denied iff the token differs from the secret, whatever check-auth would say |
| ShortcutUpload.DenialIssuesOneLink | app/api/shortcut-upload/route.ts:122-145 | a denial makes exactly one magic-link call, as the last call, and never uploads. It never reports success, and `action` is `check_email` iff issuance succeeded |
| ShortcutUpload.ImageErrorIsFirstFault | app/api/shortcut-upload/route.ts:153-170 | an image error reports the first refused image, 1-based, and its first failing check; all images before it passed |
| ShortcutUpload.TotalCheckedLast | app/api/shortcut-upload/route.ts:188-193 | the total-size error comes only when every image passed its own checks and the sizes sum past 15 MiB |
| ShortcutUpload.UploadSucceedsIffAllPass | app/api/shortcut-upload/route.ts:150-257 | a request that is let in is uploaded exactly when every image passes its own checks, the sizes sum to at most 15 MiB and the uploads resolve |
| ShortcutUpload.UploadedOnlyWhenGranted | app/api/shortcut-upload/route.ts:89-145 | success implies the request had an email and one to three images and was let in, and it reports one file per image |
| ShortcutUpload.GrantedFaultyImageRejected | app/api/shortcut-upload/route.ts:150-186 | a request that is let in with a refused image gets an image error naming that image or an earlier one |
| ShortcutUpload.UnreachableCheckIs500 | app/api/shortcut-upload/route.ts:105-265 | when the check-auth fetch rejects, the answer is the outer catch's 500 after that single call: no magic link and no upload |
| ShortcutUpload.OverTotalIsRejected | app/api/shortcut-upload/route.ts:186-193 | a request that is let in whose images all pass but sum past 15 MiB gets the total-size error, and nothing is uploaded |
| ShortcutUpload.UploadAttemptedIff | app/api/shortcut-upload/route.ts:89-199 | Cloudinary is called with some files exactly when the request reaches authentication and is let in, every image passes and yields those files, and they sum to at most 15 MiB. Every earlier answer uploads nothing |
| ShortcutUpload.FailedUploadIs500 | app/api/shortcut-upload/route.ts:197-265 | a request that is let in whose images pass and fit, but whose upload rejects, gets 500, after an upload attempt with exactly the processed files as the last call |
| CreateDrop.ParseTheme | netlify/functions/create-drop.js:57-65 | a theme is accepted iff it is one of `minimal`, `dark`, `warm`, and the accepted theme is the one of that name |
| CreateDrop.ThemeRoundTrip | netlify/functions/create-drop.js:57-65 | every theme's name is accepted and read back as that same theme |
| CreateDrop.TrimOrNull | netlify/functions/create-drop.js:97-103 | the result is null iff the field is absent or blank after trimming, and is otherwise the non-empty trimmed text |
| CreateDrop.QuantityOrOne | netlify/functions/create-drop.js:99 | the quantity is never 0: the parsed value when it is non-zero, else 1 |
| CreateDrop.CheckoutUrl | netlify/functions/create-drop.js:118 | the link is exactly the site URL, or the localhost default when it is unset, followed by `/listing/<id>`: it starts with the one, ends with the other, and is as long as both together |
| CreateDrop.ValidateBody | netlify/functions/create-drop.js:36-65 | every refusal is a 400, and a body passes iff title and image URL are present, the price is at least 100, and the theme is valid |
| CreateDrop.Normalise | netlify/functions/create-drop.js:92-105 | the row is a draft owned by the verified user. Its title is trimmed, the price and image are taken over, the stored theme is the one named, the quantity is the parsed one, or 1 when it parses to 0 or `NaN`, and each optional text is trimmed or null when absent or blank |
| CreateDrop.NormaliseIsNormalised | netlify/functions/create-drop.js:92-105 | a row built from a valid body is a draft with a trimmed title, a price of at least 100, an image, a non-zero quantity and no optional text that is empty or untrimmed |
| CreateDrop.ResubmitIsFixpoint | netlify/functions/create-drop.js:36-105 | a stored draft with a non-empty title, sent back as a body, passes validation and is stored unchanged |
| CreateDrop.Handle | netlify/functions/create-drop.js:8-133 | non-POST gives 405. A listing is created iff the body passes, a `Bearer` header is present, the token resolves to a user and the insert succeeds. It is then the normalised draft of the body, owned by that user, under the inserted id, with the checkout link to that id, and the body has `is_draft: true` exactly then. A POST with a failing body gets exactly the validator's 400, and a passing body whose token resolves to a user gets the 500 insert failure when the insert errs |
| CreateDrop.BodyCheckOrder | netlify/functions/create-drop.js:36-65 | missing or falsy fields, including price 0, come first, then a price under 100, then the theme |
| CreateDrop.ZeroPriceIsMissing | netlify/functions/create-drop.js:37-44 | a price of 0 is reported as a missing field |
| CreateDrop.BodyCheckedBeforeAuth | netlify/functions/create-drop.js:36-85 | a failing body gets the same 400 whatever the header, the user lookup or the store say |
| CreateDrop.AuthFailuresAre401 | netlify/functions/create-drop.js:67-85 | a valid body with no `Bearer` header, or with a token the provider rejects, gets 401 |
| CreateDrop.OwnerFromTokenOnly | netlify/functions/create-drop.js:76-95 | rows created under the same header have the same owner, whatever the bodies say |
| CreateDrop.BlankTitleStoredEmpty | netlify/functions/create-drop.js:37-96 | a whitespace-only title passes the required-field check and is stored as the empty string |
| CreateDrop.CheckoutLinksToListing | netlify/functions/create-drop.js:117-131 | the success payload's checkout link ends in `/listing/<inserted id>` |
| AuthConfirm.Confirm | app/auth-confirm/page.tsx:16-63 | the status is set exactly once, to `success` or `error`, and success needs both tokens. With both tokens, `setSession` is always the first call. A record-auth call whose fetch rejects means `error`. Every record-auth call comes right after a `setSession` whose session has that email, and carries `Bearer <access token>` |
| AuthConfirm.MissingTokenFails | app/auth-confirm/page.tsx:19-61 | a fragment missing either token ends in `error` with no call made |
| AuthConfirm.SessionErrorSkipsRecord | app/auth-confirm/page.tsx:25-30 | a rejected session ends in `error` after the `setSession` call alone |
| AuthConfirm.RecordUsesSessionEmail | app/auth-confirm/page.tsx:33-41 | record-auth is called iff both tokens are present and the session has a non-empty email. It is sent that email and `Bearer <access token>` |
| AuthConfirm.RecordFailureNotFatal | app/auth-confirm/page.tsx:43-48 | a non-OK record-auth reply still ends in `success`, as an OK one does |
| AuthConfirm.RecordUnreachableFails | app/auth-confirm/page.tsx:33-62 | with an established session that has an email, a record-auth fetch that rejects ends in `error`, after exactly the `setSession` call and the record-auth call |
| AuthConfirm.SessionAlwaysAttempted | app/auth-confirm/page.tsx:22-56 | a session without an email, absent or empty, ends in `success` after the `setSession` call alone, with nothing recorded |
| LoginFlow.NeverSeenNotAuthenticated | app/api/check-auth/route.ts:27-39 | an email with no row is not authenticated |
| LoginFlow.ConfirmedLoginIsRecorded | app/auth-confirm/page.tsx:33-41 | the record-auth request the page sends passes both guards. Once stored, the row is `(now, now)` |
| LoginFlow.RecordThenCheck | app/api/check-auth/route.ts:24-31 | after a record at T, a check at T' succeeds iff T' - T is at most 30 days |
| LoginFlow.RecordThenChecksThenCheck | app/api/check-auth/route.ts:24-45 | the same holds with any sequence of checks in between |
| LoginFlow.SecondLoginRenewsWindow | app/api/record-auth/route.ts:30-42 | after two records, freshness depends only on the second one's time |
| LoginFlow.ExpiryScenario | app/api/check-auth/route.ts:10-31 | a login at 0 is fresh at 29 days 23 hours and stale at 30 days 1 hour |
| LoginFlow.RenewalScenario | app/api/record-auth/route.ts:30-42 | logins at 0 and day 20 leave the email fresh at day 35 |
| LoginFlow.FreshnessReply | app/api/shortcut-upload/route.ts:113-119 | the gate reads `authenticated: true` iff the query succeeds and the ledger holds a fresh row for the email |
| LoginFlow.GateOverLedger | app/api/shortcut-upload/route.ts:105-145 | without a `Bearer` header, the gate denies iff check-auth over the ledger finds no fresh login |
| LoginFlow.UnknownEmailGetsMagicLink | app/api/shortcut-upload/route.ts:122-145 | an email with no row and no secret gets `check_email` after exactly one magic-link call |
| LoginFlow.SecretAdmitsUnknownEmail | app/api/shortcut-upload/route.ts:109-111 | the exact secret admits a request for an email the ledger has never seen, and check-auth is not asked |

## Left out

- Supabase, Cloudinary and `fetch` calls are not modelled. Their outcomes are inputs: query, update, upsert and insert errors; `getUser`; `setSession`; `signInWithOtp`; the upload result; check-auth's reply.
- `Buffer.from(data, 'base64')` is not modelled. The decoded byte length is an input function. The decoder is lenient and does not throw on strings.
- `Date` arithmetic is not modelled. `setDate(getDate() - 30)` works on the local calendar and may differ from 30 × 24 h across a DST change. The model uses exactly 30 days of milliseconds.
- record-auth reads the clock twice, once per timestamp. The model uses one `now` for both.
- check-auth also reads the clock twice, for the cutoff and for `last_used_at`. The model uses one `now` for both.
- Concurrent check/record races are not modelled. Writes are last-writer-wins, outside the code's control.
- The best-effort `image_uploads` tracking insert (app/api/shortcut-upload/route.ts:238-249) is not modelled. It never changes the response.
- Cloudinary filenames, `Date.now()` and upload options are not modelled. Neither is the content of the success payload beyond the file count.
- The exceptions that land in the outer `catch` blocks as 500s come from malformed JSON bodies, non-string JSON fields and `request.formData()` failures. JSON parsing is not modelled, so these are left out. A check-auth fetch that rejects and a Cloudinary rejection are modelled as `ServerError`.
- The `email` form field of the gate is taken as a string or absent. A file-valued `email` is left out.
- `parseInt` is modelled only through its result (`None` for `NaN`). Prices are JSON integers, and `parseInt(price_cents)` is taken to be the same number.
- `URLSearchParams` parsing of the fragment is not modelled. The page model receives the two `get` results.
- React rendering, messages, `setTimeout`/`window.close`, logging, the GET info handlers and environment loading are not modelled.
- app/api/trigger-magic-link/route.ts is not part of this model. The gate's own `signInWithOtp` call is modelled as a `MagicLinkCall` effect.
- Characters outside the Basic Multilingual Plane and lone surrogates are not modelled faithfully. A Dafny `char` is a Unicode scalar value, while a JavaScript string is a sequence of UTF-16 code units. For text outside the Basic Multilingual Plane, lengths, indices and `substring(0, 100)` count differently, and a lone surrogate cannot be written at all.
- ShortcutUpload.Upload: the response records the file count only, not the Cloudinary URLs or public ids.

=== FILE: auth_confirm.dfy ===
/**
  `handleAuthConfirm` of the `/auth-confirm` page: the landing point of a
  magic link. It reads the tokens from the URL fragment, establishes a
  session with them, records the login, and settles the page status once,
  from `loading` to `success` or `error`. Rendering is not modelled.
 */
module AuthConfirm {
  import opened Js
  import opened Http

  datatype Status = Loading | Success | Error

  /** The status the page starts in. */
  const INITIAL: Status := Loading

  /** `hashParams.get('access_token')` and `hashParams.get('refresh_token')`. */
  datatype Fragment = Fragment(accessToken: Option<string>, refreshToken: Option<string>)

  /** What `supabase.auth.setSession` answers: an error, or a session whose user may carry an email. */
  datatype SessionOutcome = SessionRejected | SessionEstablished(email: Option<string>)

  /** What the `fetch` of `/api/record-auth` does: resolve with an ok or non-ok response, or reject. */
  datatype RecordOutcome = RecordResponded(ok: bool) | RecordUnreachable

  datatype Call =
    | SetSession(accessToken: string, refreshToken: string)
    | RecordAuth(email: string, authorization: string)

  /** The `setStatus` calls made, in order, and the calls to other services. */
  datatype Confirmation = Confirmation(statusUpdates: seq<Status>, calls: seq<Call>)

  /** The status shown once the handler has run. */
  function FinalStatus(c: Confirmation): Status {
    if |c.statusUpdates| == 0 then INITIAL else c.statusUpdates[|c.statusUpdates| - 1]
  }

  /** `handleAuthConfirm`; any exception thrown on the way lands in its `catch`, which sets `error`. */
  function Confirm(f: Fragment, setSession: (string, string) -> SessionOutcome, record: RecordOutcome): (c: Confirmation)
    ensures |c.statusUpdates| == 1 && c.statusUpdates[0] != Loading
    ensures FinalStatus(c) == Success ==> Present(f.accessToken) && Present(f.refreshToken)
    ensures Present(f.accessToken) && Present(f.refreshToken) ==>
              |c.calls| > 0 && c.calls[0] == SetSession(f.accessToken.value, f.refreshToken.value)
    ensures (exists i :: 0 <= i < |c.calls| && c.calls[i].RecordAuth?) && record.RecordUnreachable? ==>
              FinalStatus(c) == Error
    ensures forall i :: 0 <= i < |c.calls| && c.calls[i].RecordAuth? ==>
              && i > 0 && c.calls[i - 1].SetSession?
              && c.calls[i].authorization == BEARER + c.calls[i - 1].accessToken
              && setSession(c.calls[i - 1].accessToken, c.calls[i - 1].refreshToken)
                 == SessionEstablished(Some(c.calls[i].email))
  {
    if !Present(f.accessToken) || !Present(f.refreshToken) then Confirmation([Error], [])
    else
      var access := f.accessToken.value;
      var refresh := f.refreshToken.value;
      var session := setSession(access, refresh);
      if session.SessionRejected? then Confirmation([Error], [SetSession(access, refresh)])
      else if !Present(session.email) then Confirmation([Success], [SetSession(access, refresh)])
      else
        var calls := [SetSession(access, refresh), RecordAuth(session.email.value, BEARER + access)];
        if record.RecordUnreachable? then Confirmation([Error], calls)
        else Confirmation([Success], calls)
  }

  /** Lemma: a fragment missing either token fails at once, without any call. */
  lemma MissingTokenFails(f: Fragment, setSession: (string, string) -> SessionOutcome, record: RecordOutcome)
    requires !Present(f.accessToken) || !Present(f.refreshToken)
    ensures Confirm(f, setSession, record) == Confirmation([Error], [])
  {
  }

  /** Lemma: a rejected session fails and record-auth is never called. */
  lemma SessionErrorSkipsRecord(f: Fragment, setSession: (string, string) -> SessionOutcome, record: RecordOutcome)
    requires Present(f.accessToken) && Present(f.refreshToken)
    requires setSession(f.accessToken.value, f.refreshToken.value) == SessionRejected
    ensures FinalStatus(Confirm(f, setSession, record)) == Error
    ensures Confirm(f, setSession, record).calls == [SetSession(f.accessToken.value, f.refreshToken.value)]
  {
  }

  /**
    Lemma: record-auth is called exactly when the session carries an email,
    it is sent that email, and its bearer credential is the fragment's access token.
   */
  lemma RecordUsesSessionEmail(f: Fragment, setSession: (string, string) -> SessionOutcome, record: RecordOutcome,
                               email: string, authorization: string)
    ensures RecordAuth(email, authorization) in Confirm(f, setSession, record).calls <==>
              && Present(f.accessToken) && Present(f.refreshToken)
              && setSession(f.accessToken.value, f.refreshToken.value) == SessionEstablished(Some(email))
              && email != ""
              && authorization == BEARER + f.accessToken.value
  {
  }

  /** Lemma: a record-auth reply that is not ok is only logged: the page still reports success. */
  lemma RecordFailureNotFatal(f: Fragment, setSession: (string, string) -> SessionOutcome)
    requires Present(f.accessToken) && Present(f.refreshToken)
    requires setSession(f.accessToken.value, f.refreshToken.value).SessionEstablished?
    ensures FinalStatus(Confirm(f, setSession, RecordResponded(false))) == Success
    ensures FinalStatus(Confirm(f, setSession, RecordResponded(false)))
         == FinalStatus(Confirm(f, setSession, RecordResponded(true)))
  {
  }

  /**
    Lemma: a record-auth `fetch` that rejects throws into the handler's
    `catch`, so the page ends in `error` even though the session was
    established; only a response that is not ok is tolerated.
   */
  lemma RecordUnreachableFails(f: Fragment, setSession: (string, string) -> SessionOutcome, email: string)
    requires Present(f.accessToken) && Present(f.refreshToken)
    requires setSession(f.accessToken.value, f.refreshToken.value) == SessionEstablished(Some(email))
    requires email != ""
    ensures Confirm(f, setSession, RecordUnreachable)
         == Confirmation([Error], [SetSession(f.accessToken.value, f.refreshToken.value),
                                   RecordAuth(email, BEARER + f.accessToken.value)])
  {
  }

  /**
    Lemma: a session without an email (none, or an empty one) ends in
    `success` after the `setSession` call alone: nothing is recorded.
   */
  lemma SessionAlwaysAttempted(f: Fragment, setSession: (string, string) -> SessionOutcome, record: RecordOutcome)
    requires Present(f.accessToken) && Present(f.refreshToken)
    requires setSession(f.accessToken.value, f.refreshToken.value).SessionEstablished?
    requires !Present(setSession(f.accessToken.value, f.refreshToken.value).email)
    ensures Confirm(f, setSession, record)
         == Confirmation([Success], [SetSession(f.accessToken.value, f.refreshToken.value)])
  {
  }
}

=== FILE: check_auth.dfy ===
/**
  `POST /api/check-auth`: is this email's last full login within the 30-day
  window? On success the row's `last_used_at` is moved to `now`.
 */
module CheckAuth {
  import opened Js
  import opened Ledger

  datatype CheckResponse =
    | EmailRequired                      // 400 { error: 'Email required' }
    | NotAuthenticated                   // 200 { authenticated: false }
    | Authenticated(lastUsed: Time)      // 200 { authenticated: true, last_used }
  {
    function Status(): int {
      if EmailRequired? then 400 else 200
    }
  }

  datatype CheckResult = CheckResult(response: CheckResponse, table: Table)

  /**
    The handler. `queryOk` is false when the select itself fails (the handler
    then answers as for a missing row); `updateOk` is false when the
    `last_used_at` update fails, an error the handler does not look at.
   */
  function Check(t: Table, email: Option<Email>, now: Time, queryOk: bool, updateOk: bool): (r: CheckResult)
    ensures !Present(email) ==> r.response == EmailRequired && r.table == t
    ensures r.response.EmailRequired? <==> !Present(email)
    ensures r.response.Status() == 400 <==> !Present(email)
    ensures r.response.Authenticated? <==>
              Present(email) && queryOk && email.value in t && Fresh(t[email.value], now)
    ensures r.response.Authenticated? ==> r.response.lastUsed == t[email.value].lastUsedAt
    ensures !r.response.Authenticated? ==> r.table == t
    ensures r.response.Authenticated? && updateOk ==>
              r.table == t[email.value := Row(t[email.value].authenticatedAt, now)]
    ensures !updateOk ==> r.table == t
  {
    if !Present(email) then CheckResult(EmailRequired, t)
    else
      var found := if queryOk then FindFresh(t, email.value, Cutoff(now)) else None;
      if found.None? then CheckResult(NotAuthenticated, t)
      else
        var t' := if updateOk then TouchLastUsed(t, email.value, now) else t;
        CheckResult(Authenticated(found.value.lastUsedAt), t')
  }

  /** Lemma: a missing row and a stale row get the very same answer, and neither touches the table. */
  lemma MissingAndStaleAlike(t1: Table, t2: Table, email: Email, now: Time, queryOk: bool, updateOk: bool)
    requires email != ""
    requires email !in t1
    requires email in t2 && !Fresh(t2[email], now)
    ensures Check(t1, Some(email), now, queryOk, updateOk).response
         == Check(t2, Some(email), now, queryOk, updateOk).response
         == NotAuthenticated
    ensures Check(t2, Some(email), now, queryOk, updateOk).table == t2
  {
  }

  /** Lemma: the window is inclusive: a login exactly 30 days before `now` still counts, one millisecond earlier does not. */
  lemma WindowBoundaryInclusive(t: Table, email: Email, now: Time)
    requires email != "" && email in t
    ensures t[email].authenticatedAt == now - 30 * DAY ==>
              Check(t, Some(email), now, true, true).response.Authenticated?
    ensures t[email].authenticatedAt == now - 30 * DAY - 1 ==>
              Check(t, Some(email), now, true, true).response == NotAuthenticated
  {
  }

  /** One call of the handler, as a step of a sequence of calls. */
  datatype CheckCall = CheckCall(email: Option<Email>, now: Time, queryOk: bool, updateOk: bool)

  /** The table after a sequence of check-auth calls. */
  function RunChecks(t: Table, calls: seq<CheckCall>): Table
    decreases |calls|
  {
    if |calls| == 0 then t
    else
      var c := calls[0];
      RunChecks(Check(t, c.email, c.now, c.queryOk, c.updateOk).table, calls[1..])
  }

  /**
    Lemma: no number of checks moves any row's `authenticated_at` or adds or
    drops a row, so checks never extend the window.
   */
  lemma {:induction false} ChecksKeepLogins(t: Table, calls: seq<CheckCall>)
    ensures RunChecks(t, calls).Keys == t.Keys
    ensures forall e :: e in t ==> RunChecks(t, calls)[e].authenticatedAt == t[e].authenticatedAt
    decreases |calls|
  {
    if |calls| > 0 {
      var c := calls[0];
      var t1 := Check(t, c.email, c.now, c.queryOk, c.updateOk).table;
      assert t1.Keys == t.Keys;
      assert forall e :: e in t ==> t1[e].authenticatedAt == t[e].authenticatedAt;
      ChecksKeepLogins(t1, calls[1..]);
    }
  }

  /** Lemma: whatever checks ran in between, freshness at any time is what the table before them says. */
  lemma ChecksNeverExtendWindow(t: Table, calls: seq<CheckCall>, email: Email, now: Time)
    requires email != ""
    ensures Check(RunChecks(t, calls), Some(email), now, true, true).response.Authenticated?
        <==> email in t && Fresh(t[email], now)
  {
    ChecksKeepLogins(t, calls);
  }
}

=== FILE: create_drop.dfy ===
/**
  The `create-drop` function: validate a new listing ("drop"), authenticate
  its seller through the identity provider, and insert it as a draft.
 */
module CreateDrop {
  import opened Js
  import opened Http

  const MIN_PRICE_CENTS: int := 100
  const DEFAULT_SITE_URL: string := "http://localhost:8888"

  datatype Theme = Minimal | Dark | Warm

  datatype ListingStatus = Draft

  /**
    The JSON body. Absent fields are `None`; `priceCents` is a JSON number
    taken as an integer; `quantity` is already the result of `parseInt`,
    `None` standing for `NaN`.
   */
  datatype DropBody = DropBody(
    title: Option<string>,
    quantity: Option<int>,
    priceCents: Option<int>,
    story: Option<string>,
    imageUrl: Option<string>,
    shippingInfo: Option<string>,
    returnsInfo: Option<string>,
    theme: Option<string>)

  datatype DropRequest = DropRequest(httpMethod: string, body: DropBody, authorization: Option<string>)

  /** The row handed to the `listings` insert. */
  datatype ListingRow = ListingRow(
    userId: string,
    title: string,
    story: Option<string>,
    priceCents: int,
    quantity: int,
    imageUrl: string,
    theme: Theme,
    shippingInfo: Option<string>,
    returnsInfo: Option<string>,
    status: ListingStatus)

  datatype DropResponse =
    | MethodNotAllowed                                              // 405
    | MissingFields                                                 // 400 'Missing required fields...'
    | PriceTooLow                                                   // 400 'Price must be at least $1.00'
    | InvalidTheme                                                  // 400 'Invalid theme selection'
    | AuthRequired                                                  // 401 'Authentication required'
    | InvalidAuth                                                   // 401 'Invalid authentication'
    | InsertFailed                                                  // 500 'Failed to create listing'
    | Created(listingId: string, row: ListingRow, checkoutUrl: string) // 200
  {
    /** The `is_draft` field of the body, present only on the 200 answer. */
    function IsDraft(): Option<bool> {
      if Created? then Some(true) else None
    }

    function Status(): int {
      match this
      case MethodNotAllowed => 405
      case MissingFields => 400
      case PriceTooLow => 400
      case InvalidTheme => 400
      case AuthRequired => 401
      case InvalidAuth => 401
      case InsertFailed => 500
      case Created(_, _, _) => 200
    }
  }

  /** The name a theme is sent and stored under. */
  function ThemeName(th: Theme): string {
    match th
    case Minimal => "minimal"
    case Dark => "dark"
    case Warm => "warm"
  }

  /** `validThemes.includes(theme)` read as a theme. */
  function ParseTheme(theme: Option<string>): (r: Option<Theme>)
    ensures r.Some? <==> theme.Some? && theme.value in ["minimal", "dark", "warm"]
    ensures r.Some? ==> ThemeName(r.value) == theme.value
  {
    match theme
    case Some("minimal") => Some(Minimal)
    case Some("dark") => Some(Dark)
    case Some("warm") => Some(Warm)
    case _ => None
  }

  /** Lemma: every theme's name is accepted and read back as that theme. */
  lemma ThemeRoundTrip(th: Theme)
    ensures ParseTheme(Some(ThemeName(th))) == Some(th)
  {
  }

  /** `v?.trim() || null`: the trimmed text, or null when absent or blank. */
  function TrimOrNull(v: Option<string>): (r: Option<string>)
    ensures r.None? <==> v.None? || Trim(v.value) == ""
    ensures r.Some? ==> r.value == Trim(v.value) && r.value != ""
  {
    match v
    case None => None
    case Some(s) => if Trim(s) == "" then None else Some(Trim(s))
  }

  /** `parseInt(quantity) || 1`: zero and `NaN` both fall back to one. */
  function QuantityOrOne(parsed: Option<int>): (q: int)
    ensures q != 0
    ensures parsed.Some? && parsed.value != 0 ==> q == parsed.value
    ensures parsed.None? || parsed.value == 0 ==> q == 1
  {
    match parsed
    case Some(n) => if n != 0 then n else 1
    case None => 1
  }

  /** `${process.env.URL || 'http://localhost:8888'}/listing/${listing.id}` */
  function CheckoutUrl(siteUrl: Option<string>, listingId: string): (url: string)
    ensures EndsWith(url, "/listing/" + listingId)
    ensures StartsWith(url, if Present(siteUrl) then siteUrl.value else DEFAULT_SITE_URL)
    ensures |url| == |if Present(siteUrl) then siteUrl.value else DEFAULT_SITE_URL| + |"/listing/" + listingId|
  {
    var base := if Present(siteUrl) then siteUrl.value else DEFAULT_SITE_URL;
    var url := base + ("/listing/" + listingId);
    assert url[|url| - |"/listing/" + listingId|..] == "/listing/" + listingId;
    assert url[..|base|] == base;
    url
  }

  /** The three body checks, in order; `None` when the body passes them all. */
  function ValidateBody(b: DropBody): (r: Option<DropResponse>)
    ensures r.Some? ==> r.value.Status() == 400
    ensures r.None? <==>
              && Present(b.title) && b.priceCents.Some? && b.priceCents.value >= MIN_PRICE_CENTS
              && Present(b.imageUrl) && ParseTheme(b.theme).Some?
  {
    if !Present(b.title) || b.priceCents.None? || b.priceCents.value == 0 || !Present(b.imageUrl) then Some(MissingFields)
    else if b.priceCents.value < MIN_PRICE_CENTS then Some(PriceTooLow)
    else if ParseTheme(b.theme).None? then Some(InvalidTheme)
    else None
  }

  /** The normalised row for a body that passed validation and a verified user. */
  function Normalise(b: DropBody, userId: string): (row: ListingRow)
    requires ValidateBody(b).None?
    ensures row.status == Draft && row.userId == userId
    ensures row.title == Trim(b.title.value) && row.priceCents == b.priceCents.value
    ensures row.imageUrl == b.imageUrl.value && ThemeName(row.theme) == b.theme.value
    ensures row.quantity == QuantityOrOne(b.quantity)
    ensures row.story == TrimOrNull(b.story)
    ensures row.shippingInfo == TrimOrNull(b.shippingInfo)
    ensures row.returnsInfo == TrimOrNull(b.returnsInfo)
  {
    ListingRow(
      userId := userId,
      title := Trim(b.title.value),
      story := TrimOrNull(b.story),
      priceCents := b.priceCents.value,
      quantity := QuantityOrOne(b.quantity),
      imageUrl := b.imageUrl.value,
      theme := ParseTheme(b.theme).value,
      shippingInfo := TrimOrNull(b.shippingInfo),
      returnsInfo := TrimOrNull(b.returnsInfo),
      status := Draft)
  }

  /** An optional text as the row stores it: absent, or non-empty with nothing to trim. */
  predicate NormalisedText(v: Option<string>) {
    v.Some? ==> v.value != "" && Trim(v.value) == v.value
  }

  /** The shape every row built from a valid body has. */
  predicate IsNormalised(row: ListingRow) {
    && row.status == Draft
    && Trim(row.title) == row.title
    && row.priceCents >= MIN_PRICE_CENTS
    && row.imageUrl != ""
    && row.quantity != 0
    && NormalisedText(row.story) && NormalisedText(row.shippingInfo) && NormalisedText(row.returnsInfo)
  }

  /** Lemma: normalising a valid body gives a row of that shape. */
  lemma NormaliseIsNormalised(b: DropBody, userId: string)
    requires ValidateBody(b).None?
    ensures IsNormalised(Normalise(b, userId))
  {
    TrimIdempotent(b.title.value);
    if b.story.Some? { TrimIdempotent(b.story.value); }
    if b.shippingInfo.Some? { TrimIdempotent(b.shippingInfo.value); }
    if b.returnsInfo.Some? { TrimIdempotent(b.returnsInfo.value); }
  }

  /** The body a client would send to list `row` again. */
  function BodyOf(row: ListingRow): DropBody {
    DropBody(
      title := Some(row.title),
      quantity := Some(row.quantity),
      priceCents := Some(row.priceCents),
      story := row.story,
      imageUrl := Some(row.imageUrl),
      shippingInfo := row.shippingInfo,
      returnsInfo := row.returnsInfo,
      theme := Some(ThemeName(row.theme)))
  }

  /**
    Lemma: normalisation is a fixpoint on its own output: a stored draft with
    a non-empty title, sent back as a body by its owner, passes validation
    and is stored unchanged.
   */
  lemma ResubmitIsFixpoint(row: ListingRow)
    requires IsNormalised(row) && row.title != ""
    ensures ValidateBody(BodyOf(row)).None?
    ensures Normalise(BodyOf(row), row.userId) == row
  {
    ThemeRoundTrip(row.theme);
  }

  /**
    The handler. `getUser` is the identity provider's answer for a token (a
    user id, or `None` on error or no user); `inserted` is the id the store
    gave the new row, or `None` when the insert failed; `siteUrl` is `URL`.
   */
  function Handle(req: DropRequest, getUser: string -> Option<string>, inserted: Option<string>, siteUrl: Option<string>): (r: DropResponse)
    ensures req.httpMethod != "POST" ==> r == MethodNotAllowed
    ensures req.httpMethod == "POST" && ValidateBody(req.body).Some? ==> r == ValidateBody(req.body).value
    ensures && req.httpMethod == "POST" && ValidateBody(req.body).None?
            && HasBearer(req.authorization) && getUser(BearerToken(req.authorization.value)).Some?
            && inserted.None?
            ==> r == InsertFailed
    ensures r.Created? <==>
              && req.httpMethod == "POST" && ValidateBody(req.body).None?
              && HasBearer(req.authorization) && getUser(BearerToken(req.authorization.value)).Some?
              && inserted.Some?
    ensures r.IsDraft() == Some(true) <==> r.Created?
    ensures r.Created? ==>
              && r.row.status == Draft
              && r.row.userId == getUser(BearerToken(req.authorization.value)).value
              && r.listingId == inserted.value
              && r.row == Normalise(req.body, r.row.userId)
              && r.checkoutUrl == CheckoutUrl(siteUrl, inserted.value)
  {
    if req.httpMethod != "POST" then MethodNotAllowed
    else if ValidateBody(req.body).Some? then ValidateBody(req.body).value
    else if !HasBearer(req.authorization) then AuthRequired
    else
      var user := getUser(BearerToken(req.authorization.value));
      if user.None? then InvalidAuth
      else if inserted.None? then InsertFailed
      else Created(inserted.value, Normalise(req.body, user.value), CheckoutUrl(siteUrl, inserted.value))
  }

  /**
    Lemma: which 400 a body gets: missing or falsy required fields first,
    then the price minimum, then the theme.
   */
  lemma BodyCheckOrder(b: DropBody)
    ensures ValidateBody(b) == Some(MissingFields) <==>
              !Present(b.title) || b.priceCents.None? || b.priceCents.value == 0 || !Present(b.imageUrl)
    ensures ValidateBody(b) == Some(PriceTooLow) <==>
              Present(b.title) && Present(b.imageUrl) && b.priceCents.Some?
              && b.priceCents.value != 0 && b.priceCents.value < MIN_PRICE_CENTS
    ensures ValidateBody(b) == Some(InvalidTheme) <==>
              Present(b.title) && Present(b.imageUrl) && b.priceCents.Some?
              && b.priceCents.value >= MIN_PRICE_CENTS && ParseTheme(b.theme).None?
  {
  }

  /** Lemma: a zero price is caught as a missing field, before the price minimum. */
  lemma ZeroPriceIsMissing(req: DropRequest, getUser: string -> Option<string>, inserted: Option<string>, siteUrl: Option<string>)
    requires req.httpMethod == "POST" && req.body.priceCents == Some(0)
    ensures Handle(req, getUser, inserted, siteUrl) == MissingFields
  {
  }

  /**
    Lemma: every body check comes before authentication: a body that fails one
    gets the same 400 whatever the header, the identity provider or the store say.
   */
  lemma BodyCheckedBeforeAuth(req: DropRequest, authorization: Option<string>,
                              getUser1: string -> Option<string>, getUser2: string -> Option<string>,
                              inserted1: Option<string>, inserted2: Option<string>, siteUrl: Option<string>)
    requires req.httpMethod == "POST" && ValidateBody(req.body).Some?
    ensures Handle(req, getUser1, inserted1, siteUrl)
         == Handle(req.(authorization := authorization), getUser2, inserted2, siteUrl)
    ensures Handle(req, getUser1, inserted1, siteUrl).Status() == 400
  {
  }

  /** Lemma: a valid body with no bearer header gets 401, and one whose token the provider rejects gets 401 too. */
  lemma AuthFailuresAre401(req: DropRequest, getUser: string -> Option<string>, inserted: Option<string>, siteUrl: Option<string>)
    requires req.httpMethod == "POST" && ValidateBody(req.body).None?
    requires !HasBearer(req.authorization) || getUser(BearerToken(req.authorization.value)).None?
    ensures Handle(req, getUser, inserted, siteUrl).Status() == 401
  {
  }

  /**
    Lemma: the seller is whoever the token belongs to: two requests with the
    same header create rows with the same `user_id`, whatever else the bodies say.
   */
  lemma OwnerFromTokenOnly(req1: DropRequest, req2: DropRequest, getUser: string -> Option<string>,
                           inserted: Option<string>, siteUrl: Option<string>)
    requires req1.authorization == req2.authorization
    requires Handle(req1, getUser, inserted, siteUrl).Created? && Handle(req2, getUser, inserted, siteUrl).Created?
    ensures Handle(req1, getUser, inserted, siteUrl).row.userId == Handle(req2, getUser, inserted, siteUrl).row.userId
  {
  }

  /**
    Lemma: a title of nothing but whitespace is truthy, so it passes the
    required-field check, and the row stores it trimmed to the empty string.
   */
  lemma BlankTitleStoredEmpty(req: DropRequest, getUser: string -> Option<string>, inserted: Option<string>, siteUrl: Option<string>)
    requires Handle(req, getUser, inserted, siteUrl).Created?
    requires forall k :: 0 <= k < |req.body.title.value| ==> IsWhitespace(req.body.title.value[k])
    ensures Handle(req, getUser, inserted, siteUrl).row.title == ""
  {
  }

  /** Lemma: the payload's checkout link ends in `/listing/<id>` of the inserted row. */
  lemma CheckoutLinksToListing(req: DropRequest, getUser: string -> Option<string>, inserted: Option<string>, siteUrl: Option<string>)
    requires Handle(req, getUser, inserted, siteUrl).Created?
    ensures EndsWith(Handle(req, getUser, inserted, siteUrl).checkoutUrl, "/listing/" + inserted.value)
  {
  }
}

=== FILE: http.dfy ===
/**
  The `Authorization: Bearer <token>` header convention shared by the
  handlers: the test for the prefix and the token after it.
 */
module Http {
  import opened Js

  const BEARER: string := "Bearer "

  /** `authHeader?.startsWith('Bearer ')`, also written `authHeader && authHeader.startsWith('Bearer ')` */
  predicate HasBearer(authorization: Option<string>) {
    authorization.Some? && StartsWith(authorization.value, BEARER)
  }

  /** `authHeader.replace('Bearer ', '')` on a header known to start with the prefix. */
  function BearerToken(authorization: string): (token: string)
    requires StartsWith(authorization, BEARER)
    ensures BEARER + token == authorization
  {
    ReplaceFirst(authorization, BEARER, "")
  }
}

=== FILE: js.dfy ===
/**
  The few JavaScript value and string primitives the handlers rely on:
  truthiness of an optional string, `startsWith`, `indexOf`, `replace` with a
  string pattern (first occurrence only), `includes` and `trim`.
  Strings are `seq<char>`, where a `char` is a Unicode scalar value; a
  JavaScript string is a sequence of UTF-16 code units, so the two agree
  only on text inside the Basic Multilingual Plane.
 */
module Js {

  /** A value that may be absent (`null` or `undefined` in JavaScript). */
  datatype Option<+T> = None | Some(value: T)

  /** `!!v` for a value that is either absent or a string: the empty string is falsy. */
  predicate Present(v: Option<string>) {
    v.Some? && v.value != ""
  }

  /** `s.startsWith(prefix)` */
  predicate StartsWith(s: string, prefix: string) {
    |prefix| <= |s| && s[..|prefix|] == prefix
  }

  /** `s.endsWith(suffix)` */
  predicate EndsWith(s: string, suffix: string) {
    |suffix| <= |s| && s[|s| - |suffix|..] == suffix
  }

  /** `s` holds `pattern` at position `i`. */
  predicate OccursAt(s: string, pattern: string, i: int) {
    0 <= i && i + |pattern| <= |s| && s[i..i + |pattern|] == pattern
  }

  /** `s.indexOf(pattern)`: the first position of `pattern` in `s`, or -1. */
  function IndexOf(s: string, pattern: string): (i: int)
    ensures i >= -1
    ensures i >= 0 ==> OccursAt(s, pattern, i)
    ensures i >= 0 ==> forall j :: 0 <= j < i ==> !OccursAt(s, pattern, j)
    ensures i == -1 ==> forall j :: 0 <= j <= |s| - |pattern| ==> !OccursAt(s, pattern, j)
    decreases |s|
  {
    if |pattern| > |s| then -1
    else if s[..|pattern|] == pattern then 0
    else
      var k := IndexOf(s[1..], pattern);
      assert forall j :: 1 <= j <= |s| - |pattern| ==>
        (OccursAt(s, pattern, j) <==> OccursAt(s[1..], pattern, j - 1)) by {
        forall j | 1 <= j <= |s| - |pattern| {
          OccursShift(s, pattern, j);
        }
      }
      if k < 0 then -1 else k + 1
  }

  /** Lemma: an occurrence at `j >= 1` in `s` is one at `j - 1` in `s` without its first character. */
  lemma OccursShift(s: string, pattern: string, j: int)
    requires 1 <= j && j + |pattern| <= |s|
    ensures OccursAt(s, pattern, j) <==> OccursAt(s[1..], pattern, j - 1)
  {
    var a := s[j..j + |pattern|];
    var b := s[1..][j - 1..j - 1 + |pattern|];
    forall k | 0 <= k < |pattern|
      ensures a[k] == b[k]
    {
      assert a[k] == s[j + k];
      assert b[k] == s[j + k];
    }
    assert a == b;
  }

  /** `s.includes(pattern)` */
  predicate Includes(s: string, pattern: string) {
    IndexOf(s, pattern) >= 0
  }

  /** `s.replace(pattern, replacement)` with a string pattern: only the first occurrence is replaced. */
  function ReplaceFirst(s: string, pattern: string, replacement: string): (r: string)
    ensures !Includes(s, pattern) ==> r == s
    ensures StartsWith(s, pattern) ==> r == replacement + s[|pattern|..]
  {
    var i := IndexOf(s, pattern);
    if i < 0 then s
    else
      assert StartsWith(s, pattern) ==> OccursAt(s, pattern, 0);
      s[..i] + replacement + s[i + |pattern|..]
  }

  /** Lemma: an occurrence anywhere in `s` makes `includes` true. */
  lemma IncludesAt(s: string, pattern: string, i: int)
    requires OccursAt(s, pattern, i)
    ensures Includes(s, pattern)
  {
  }

  /** Lemma: a pattern holding a character that `s` lacks is not included in `s`. */
  lemma NotIncludesMissingChar(s: string, pattern: string, c: char)
    requires c in pattern && c !in s
    ensures !Includes(s, pattern)
  {
  }

  /**
    The characters `String.prototype.trim` strips: the ECMAScript WhiteSpace
    and LineTerminator code points.
   */
  predicate IsWhitespace(c: char) {
    || c == '\t' || c == '\n' || c == '\U{000B}' || c == '\U{000C}' || c == '\r'
    || c == ' ' || c == '\U{00A0}' || c == '\U{1680}'
    || ('\U{2000}' <= c <= '\U{200A}')
    || c == '\U{2028}' || c == '\U{2029}' || c == '\U{202F}' || c == '\U{205F}'
    || c == '\U{3000}' || c == '\U{FEFF}'
  }

  function TrimStart(s: string): (r: string)
    ensures |r| <= |s| && r == s[|s| - |r|..]
    ensures forall k :: 0 <= k < |s| - |r| ==> IsWhitespace(s[k])
    ensures |r| > 0 ==> !IsWhitespace(r[0])
    decreases |s|
  {
    if |s| > 0 && IsWhitespace(s[0]) then TrimStart(s[1..]) else s
  }

  function TrimEnd(s: string): (r: string)
    ensures |r| <= |s| && r == s[..|r|]
    ensures forall k :: |r| <= k < |s| ==> IsWhitespace(s[k])
    ensures |r| > 0 ==> !IsWhitespace(r[|r| - 1])
    decreases |s|
  {
    if |s| > 0 && IsWhitespace(s[|s| - 1]) then TrimEnd(s[..|s| - 1]) else s
  }

  /** `s.trim()`: a slice of `s` that neither starts nor ends with whitespace, with only whitespace cut off. */
  function Trim(s: string): (r: string)
    ensures exists i, j ::
              && 0 <= i <= j <= |s| && r == s[i..j]
              && (forall k :: 0 <= k < i ==> IsWhitespace(s[k]))
              && (forall k :: j <= k < |s| ==> IsWhitespace(s[k]))
    ensures |r| > 0 ==> !IsWhitespace(r[0]) && !IsWhitespace(r[|r| - 1])
  {
    var t := TrimStart(s);
    var r := TrimEnd(t);
    var i := |s| - |t|;
    assert r == s[i..i + |r|];
    r
  }

  /** Lemma: trimming twice is trimming once. */
  lemma TrimIdempotent(s: string)
    ensures Trim(Trim(s)) == Trim(s)
  {
    var r := Trim(s);
    assert TrimStart(r) == r;
    assert TrimEnd(r) == r;
  }
}

=== FILE: ledger.dfy ===
/**
  The `authenticated_users` table: one row per email holding the time of the
  last full (magic-link) login and the time of the last successful freshness
  check. Time is an integer count of milliseconds, as a JavaScript `Date` holds it.
 */
module Ledger {
  import opened Js

  type Email = string
  type Time = int

  const SECOND: int := 1000
  const DAY: int := 24 * 60 * 60 * SECOND
  /** `AUTH_EXPIRY_DAYS` of check-auth. */
  const AUTH_EXPIRY_DAYS: int := 30
  const WINDOW: int := AUTH_EXPIRY_DAYS * DAY

  datatype Row = Row(authenticatedAt: Time, lastUsedAt: Time)

  /** Keyed on email, so the table holds at most one row per email by construction. */
  type Table = map<Email, Row>

  /** The earliest `authenticated_at` that still counts at time `now`. */
  function Cutoff(now: Time): (c: Time)
    ensures now - c == 30 * 86_400_000
  {
    now - WINDOW
  }

  /** A row is fresh at `now` when its `authenticated_at` is at or after the cutoff; `last_used_at` plays no part. */
  predicate Fresh(row: Row, now: Time) {
    row.authenticatedAt >= Cutoff(now)
  }

  /**
    The select of check-auth: the row for `email` whose `authenticated_at`
    is at least `cutoff`, if there is one.
   */
  function FindFresh(t: Table, email: Email, cutoff: Time): (r: Option<Row>)
    ensures r.Some? <==> email in t && t[email].authenticatedAt >= cutoff
    ensures r.Some? ==> r.value == t[email]
  {
    if email in t && t[email].authenticatedAt >= cutoff then Some(t[email]) else None
  }

  /** Lemma: a fresh row is found under any earlier cutoff too. */
  lemma FindFreshMonotone(t: Table, email: Email, earlier: Time, later: Time)
    requires earlier <= later
    ensures FindFresh(t, email, later).Some? ==> FindFresh(t, email, earlier) == FindFresh(t, email, later)
  {
  }

  /** The update of check-auth: set `last_used_at` of the row for `email`, if any; nothing else changes. */
  function TouchLastUsed(t: Table, email: Email, at: Time): (t': Table)
    ensures t'.Keys == t.Keys
    ensures email in t ==> t'[email] == Row(t[email].authenticatedAt, at)
    ensures forall e :: e in t && e != email ==> t'[e] == t[e]
  {
    if email in t then t[email := t[email].(lastUsedAt := at)] else t
  }

  /**
    Lemma: touching a row never changes what the select finds fresh, for
    any email and any cutoff: `last_used_at` plays no part in freshness.
   */
  lemma TouchKeepsFreshness(t: Table, touched: Email, at: Time, email: Email, cutoff: Time)
    ensures FindFresh(TouchLastUsed(t, touched, at), email, cutoff).Some? <==> FindFresh(t, email, cutoff).Some?
    ensures email != touched ==> FindFresh(TouchLastUsed(t, touched, at), email, cutoff) == FindFresh(t, email, cutoff)
  {
  }

  /** The upsert of record-auth, conflicting on email: the row for `email` is replaced whole. */
  function Upsert(t: Table, email: Email, row: Row): (t': Table)
    ensures t'.Keys == t.Keys + {email}
    ensures t'[email] == row
    ensures forall e :: e in t && e != email ==> t'[e] == t[e]
  {
    t[email := row]
  }

  /** Lemma: after an upsert, the select finds the new row exactly when it is fresh enough, whatever was there before. */
  lemma UpsertThenFind(t: Table, email: Email, row: Row, cutoff: Time)
    ensures FindFresh(Upsert(t, email, row), email, cutoff) == (if row.authenticatedAt >= cutoff then Some(row) else None)
  {
  }
}

=== FILE: login_flow.dfy ===
/**
  The passwordless login as a whole: the confirmation page records a login,
  check-auth reads it back within the 30-day window, and the upload gate asks
  check-auth when no shared secret is presented.
 */
module LoginFlow {
  import opened Js
  import opened Ledger
  import opened Http
  import CheckAuth
  import RecordAuth
  import AuthConfirm
  import ShortcutUpload

  /** Lemma: an email never recorded is not authenticated. */
  lemma NeverSeenNotAuthenticated(t: Table, email: Email, now: Time, queryOk: bool, updateOk: bool)
    requires email != "" && email !in t
    ensures CheckAuth.Check(t, Some(email), now, queryOk, updateOk).response == CheckAuth.NotAuthenticated
  {
  }

  /**
    Lemma: the record-auth request the confirmation page sends passes the
    endpoint's guards, and once stored, that email's row is `(now, now)`.
   */
  lemma ConfirmedLoginIsRecorded(f: AuthConfirm.Fragment, setSession: (string, string) -> AuthConfirm.SessionOutcome,
                                 outcome: AuthConfirm.RecordOutcome, email: string, authorization: string,
                                 t: Table, now: Time)
    requires AuthConfirm.RecordAuth(email, authorization) in AuthConfirm.Confirm(f, setSession, outcome).calls
    ensures RecordAuth.Record(t, Some(email), Some(authorization), now, true)
         == RecordAuth.RecordResult(RecordAuth.Recorded, t[email := Row(now, now)])
  {
    AuthConfirm.RecordUsesSessionEmail(f, setSession, outcome, email, authorization);
    assert authorization[..|BEARER|] == BEARER;
  }

  /**
    Lemma: after a login recorded at `recorded`, a check at `now` succeeds
    exactly when `now - recorded` is at most 30 days (so also for any `now`
    before the login).
   */
  lemma RecordThenCheck(t: Table, email: Email, authorization: string, recorded: Time, now: Time)
    requires email != "" && StartsWith(authorization, BEARER)
    ensures var t' := RecordAuth.Record(t, Some(email), Some(authorization), recorded, true).table;
            CheckAuth.Check(t', Some(email), now, true, true).response.Authenticated?
            <==> now - recorded <= 30 * DAY
  {
  }

  /**
    Lemma: the same holds with any number of checks in between: successful
    checks do not push the expiry back.
   */
  lemma RecordThenChecksThenCheck(t: Table, email: Email, authorization: string, recorded: Time,
                                  calls: seq<CheckAuth.CheckCall>, now: Time)
    requires email != "" && StartsWith(authorization, BEARER)
    ensures var t' := RecordAuth.Record(t, Some(email), Some(authorization), recorded, true).table;
            CheckAuth.Check(CheckAuth.RunChecks(t', calls), Some(email), now, true, true).response.Authenticated?
            <==> now - recorded <= 30 * DAY
  {
    var t' := RecordAuth.Record(t, Some(email), Some(authorization), recorded, true).table;
    CheckAuth.ChecksNeverExtendWindow(t', calls, email, now);
  }

  /**
    Lemma: a second login restarts the window from its own time, whatever the
    first one was.
   */
  lemma SecondLoginRenewsWindow(t: Table, email: Email, authorization: string, first: Time, second: Time, now: Time)
    requires email != "" && StartsWith(authorization, BEARER)
    ensures var t1 := RecordAuth.Record(t, Some(email), Some(authorization), first, true).table;
            var t2 := RecordAuth.Record(t1, Some(email), Some(authorization), second, true).table;
            CheckAuth.Check(t2, Some(email), now, true, true).response.Authenticated?
            <==> now - second <= 30 * DAY
  {
    RecordAuth.RecordTwiceIsLatest(t, email, authorization, first, second);
    RecordThenCheck(t, email, authorization, second, now);
  }

  /** Lemma: a login at 0 is still good 29 days 23 hours later and gone 30 days 1 hour later. */
  lemma ExpiryScenario(t: Table)
    ensures var t' := RecordAuth.Record(t, Some("a@x.com"), Some("Bearer tok"), 0, true).table;
            && CheckAuth.Check(t', Some("a@x.com"), 29 * DAY + 23 * 60 * 60 * SECOND, true, true).response.Authenticated?
            && CheckAuth.Check(t', Some("a@x.com"), 30 * DAY + 60 * 60 * SECOND, true, true).response == CheckAuth.NotAuthenticated
  {
    assert StartsWith("Bearer tok", BEARER);
    RecordThenCheck(t, "a@x.com", "Bearer tok", 0, 29 * DAY + 23 * 60 * 60 * SECOND);
    RecordThenCheck(t, "a@x.com", "Bearer tok", 0, 30 * DAY + 60 * 60 * SECOND);
  }

  /** Lemma: logins at 0 and at day 20 leave the email authenticated at day 35. */
  lemma RenewalScenario(t: Table)
    ensures var t1 := RecordAuth.Record(t, Some("b@x.com"), Some("Bearer tok"), 0, true).table;
            var t2 := RecordAuth.Record(t1, Some("b@x.com"), Some("Bearer tok"), 20 * DAY, true).table;
            CheckAuth.Check(t2, Some("b@x.com"), 35 * DAY, true, true).response.Authenticated?
  {
    assert StartsWith("Bearer tok", BEARER);
    SecondLoginRenewsWindow(t, "b@x.com", "Bearer tok", 0, 20 * DAY, 35 * DAY);
  }

  /** The check-auth reply the gate reads, as the handler computes it over the ledger. */
  function FreshnessReply(t: Table, email: Email, now: Time, queryOk: bool, updateOk: bool): (reply: Option<bool>)
    ensures email != "" ==> (reply == Some(true) <==> queryOk && email in t && Fresh(t[email], now))
  {
    Some(CheckAuth.Check(t, Some(email), now, queryOk, updateOk).response.Authenticated?)
  }

  /**
    Lemma: a headless request without a bearer header, whose reply comes from
    check-auth over the ledger, is turned away with a magic link exactly when
    the ledger holds no fresh login for its email.
   */
  lemma GateOverLedger(req: ShortcutUpload.UploadRequest, env: ShortcutUpload.Env, t: Table, now: Time, queryOk: bool, updateOk: bool)
    requires ShortcutUpload.ReachesAuth(req) && !HasBearer(req.authorization)
    requires env.checkAuth == FreshnessReply(t, req.email.value, now, queryOk, updateOk)
    ensures ShortcutUpload.Upload(req, env).response.IsDenial()
        <==> !(queryOk && req.email.value in t && Fresh(t[req.email.value], now))
  {
  }

  /**
    Lemma: an email with no ledger row and no shared secret gets `check_email`
    when the link goes out, after exactly one magic-link call.
   */
  lemma UnknownEmailGetsMagicLink(req: ShortcutUpload.UploadRequest, env: ShortcutUpload.Env, t: Table, now: Time, updateOk: bool)
    requires ShortcutUpload.ReachesAuth(req) && !HasBearer(req.authorization)
    requires req.email.value !in t && env.magicLinkOk
    requires env.checkAuth == FreshnessReply(t, req.email.value, now, true, updateOk)
    ensures ShortcutUpload.Upload(req, env).response == ShortcutUpload.CheckEmail
    ensures ShortcutUpload.MagicLinks(ShortcutUpload.Upload(req, env).effects) == 1
  {
  }

  /** Lemma: the exact shared secret admits a request even for an email the ledger has never seen. */
  lemma SecretAdmitsUnknownEmail(req: ShortcutUpload.UploadRequest, env: ShortcutUpload.Env, t: Table, now: Time)
    requires ShortcutUpload.ReachesAuth(req) && HasBearer(req.authorization)
    requires Some(BearerToken(req.authorization.value)) == env.secret
    requires req.email.value !in t
    ensures !ShortcutUpload.Upload(req, env).response.IsDenial()
    ensures forall e :: e in ShortcutUpload.Upload(req, env).effects ==> !e.CheckAuthCall?
  {
    ShortcutUpload.BearerComparedExactly(req, env, env.checkAuth);
  }
}

=== FILE: record_auth.dfy ===
/**
  `POST /api/record-auth`: mark an email as freshly logged in, resetting both
  timestamps of its row to `now`.
 */
module RecordAuth {
  import opened Js
  import opened Ledger
  import opened Http

  datatype RecordResponse =
    | EmailRequired     // 400 { error: 'Email required' }
    | AuthRequired      // 401 { error: 'Authentication required' }
    | RecordFailed      // 500 { error: 'Failed to record authentication' }
    | Recorded          // 200 { success: true }
  {
    function Status(): int {
      match this
      case EmailRequired => 400
      case AuthRequired => 401
      case RecordFailed => 500
      case Recorded => 200
    }

    /** The `success` field of the body, absent from every error body. */
    function SuccessField(): Option<bool> {
      if Recorded? then Some(true) else None
    }
  }

  datatype RecordResult = RecordResult(response: RecordResponse, table: Table)

  /** The handler; `upsertOk` is false when the upsert reports an error. */
  function Record(t: Table, email: Option<Email>, authorization: Option<string>, now: Time, upsertOk: bool): (r: RecordResult)
    ensures !Present(email) ==> r.response == EmailRequired
    ensures Present(email) && !HasBearer(authorization) ==> r.response == AuthRequired
    ensures r.response == Recorded <==> Present(email) && HasBearer(authorization) && upsertOk
    ensures r.response == Recorded ==> r.table == t[email.value := Row(now, now)]
    ensures r.response != Recorded ==> r.table == t
    ensures r.response.SuccessField().Some? <==> r.response.Status() == 200
  {
    if !Present(email) then RecordResult(EmailRequired, t)
    else if !HasBearer(authorization) then RecordResult(AuthRequired, t)
    else if !upsertOk then RecordResult(RecordFailed, t)
    else RecordResult(Recorded, Upsert(t, email.value, Row(now, now)))
  }

  /** Lemma: the email is looked at before the header: a request missing both gets 400, not 401. */
  lemma EmailBeforeHeader(t: Table, now: Time, upsertOk: bool)
    ensures Record(t, None, None, now, upsertOk).response.Status() == 400
  {
  }

  /** Lemma: a store error answers 500 with no `success` field and writes nothing. */
  lemma StoreErrorIs500(t: Table, email: Email, authorization: string, now: Time)
    requires email != "" && StartsWith(authorization, BEARER)
    ensures Record(t, Some(email), Some(authorization), now, false).response.Status() == 500
    ensures Record(t, Some(email), Some(authorization), now, false).response.SuccessField() == None
    ensures Record(t, Some(email), Some(authorization), now, false).table == t
  {
  }

  /** Lemma: any token after `Bearer ` will do; the token is not checked against the email. */
  lemma AnyBearerTokenPasses(t: Table, email: Option<Email>, token1: string, token2: string, now: Time, upsertOk: bool)
    ensures Record(t, email, Some(BEARER + token1), now, upsertOk)
         == Record(t, email, Some(BEARER + token2), now, upsertOk)
  {
    assert (BEARER + token1)[..|BEARER|] == BEARER;
    assert (BEARER + token2)[..|BEARER|] == BEARER;
  }

  /**
    Lemma: a successful record is a full overwrite: the new row does not depend
    on the old one, every other email keeps its row, and no duplicate appears.
   */
  lemma RecordOverwrites(t: Table, email: Email, authorization: string, now: Time)
    requires email != "" && StartsWith(authorization, BEARER)
    ensures var t' := Record(t, Some(email), Some(authorization), now, true).table;
            && t'.Keys == t.Keys + {email}
            && t'[email] == Row(now, now)
            && forall e :: e in t && e != email ==> t'[e] == t[e]
  {
  }

  /** Lemma: recording an email twice leaves the table as recording it once at the later time. */
  lemma RecordTwiceIsLatest(t: Table, email: Email, authorization: string, t1: Time, t2: Time)
    requires email != "" && StartsWith(authorization, BEARER)
    ensures var once := Record(t, Some(email), Some(authorization), t1, true).table;
            Record(once, Some(email), Some(authorization), t2, true).table
            == Record(t, Some(email), Some(authorization), t2, true).table
  {
  }
}

=== FILE: shortcut_upload.dfy ===
/**
  `POST /api/shortcut-upload`, the headless upload gate: an ordered pipeline
  of email check, image count, authentication (shared secret or freshness
  check), per-image validation, total size, and upload. Calls to other
  services appear as `Effect`s in the order they are made; their outcomes
  are inputs in `Env`.
 */
module ShortcutUpload {
  import opened Js
  import opened UploadHelpers
  import opened Http

  datatype FormValue = Text(text: string) | FileBlob
  datatype FormEntry = FormEntry(key: string, value: FormValue)

  /** The multipart form: its `email` field, every entry in order, and the `authorization` header. */
  datatype UploadRequest = UploadRequest(email: Option<string>, entries: seq<FormEntry>, authorization: Option<string>)

  /**
    What the route learns from outside: `AUTH_SECRET`; the `authenticated`
    field of the check-auth reply (`None` when that fetch rejects); whether
    `signInWithOtp` succeeded; the byte length `Buffer.from(data, 'base64')`
    yields for a payload; whether every Cloudinary upload resolved.
   */
  datatype Env = Env(
    secret: Option<string>,
    checkAuth: Option<bool>,
    magicLinkOk: bool,
    decodedLength: string -> nat,
    uploadOk: bool)

  datatype Effect =
    | CheckAuthCall(email: string)       // fetch of /api/check-auth
    | MagicLinkCall(email: string)       // supabase.auth.signInWithOtp
    | CloudUpload(files: seq<Decoded>)   // the Cloudinary uploads

  datatype ImageFault = Unreadable | TooLarge | Unsupported

  datatype UploadResponse =
    | EmailRequired                                  // 400 'Email address is required'
    | NoImages                                       // 'Please select at least one image'
    | TooManyImages(count: nat)                      // 'Maximum 3 images allowed...'
    | CheckEmail                                     // magic link sent, action 'check_email'
    | AuthFailed                                     // 'Authentication failed. Please try again.'
    | ImageRejected(index: nat, fault: ImageFault)   // 'Image <index> ...', index 1-based
    | TotalTooLarge                                  // 'Total file size too large...'
    | Uploaded(count: nat)                           // success: true
    | ServerError                                    // 500 'Upload failed. Please try again.'
  {
    function Status(): int {
      if EmailRequired? then 400 else if ServerError? then 500 else 200
    }

    /** The `success` field of the body. */
    function Success(): bool {
      Uploaded?
    }

    /** The `action` field of the body. */
    function Action(): Option<string> {
      if CheckEmail? then Some("check_email") else None
    }

    /** The two answers given to a caller found not authenticated. */
    predicate IsDenial() {
      CheckEmail? || AuthFailed?
    }
  }

  datatype GateResult = GateResult(response: UploadResponse, effects: seq<Effect>)

  // ---------------------------------------------------------------------------
  // Collecting the images
  // ---------------------------------------------------------------------------

  /** An entry the route takes as an image: a key starting with `file` and a string value. */
  predicate IsImageEntry(e: FormEntry) {
    StartsWith(e.key, "file") && e.value.Text?
  }

  /** The string values of the image entries, in form order. */
  function CollectImages(entries: seq<FormEntry>): (images: seq<string>)
    ensures |images| <= |entries|
    ensures images == [] <==> forall i :: 0 <= i < |entries| ==> !IsImageEntry(entries[i])
    decreases |entries|
  {
    if |entries| == 0 then []
    else (if IsImageEntry(entries[0]) then [entries[0].value.text] else []) + CollectImages(entries[1..])
  }

  /** Lemma: collecting over a longer form only appends what the new entry contributes. */
  lemma {:induction false} CollectImagesAppend(entries: seq<FormEntry>, e: FormEntry)
    ensures CollectImages(entries + [e]) == CollectImages(entries) + (if IsImageEntry(e) then [e.value.text] else [])
    decreases |entries|
  {
    if |entries| > 0 {
      assert (entries + [e])[1..] == entries[1..] + [e];
      CollectImagesAppend(entries[1..], e);
    } else {
      assert CollectImages([e]) == (if IsImageEntry(e) then [e.value.text] else []) + CollectImages([]);
    }
  }

  /** Lemma: a string is collected exactly when some image entry carries it. */
  lemma {:induction false} CollectImagesMembers(entries: seq<FormEntry>, s: string)
    ensures s in CollectImages(entries) <==>
              exists i :: 0 <= i < |entries| && IsImageEntry(entries[i]) && entries[i].value.text == s
    decreases |entries|
  {
    if |entries| > 0 {
      CollectImagesMembers(entries[1..], s);
      if s in CollectImages(entries[1..]) {
        var i :| 0 <= i < |entries[1..]| && IsImageEntry(entries[1..][i]) && entries[1..][i].value.text == s;
        assert entries[i + 1] == entries[1..][i];
      }
      if exists i :: 0 <= i < |entries| && IsImageEntry(entries[i]) && entries[i].value.text == s {
        var i :| 0 <= i < |entries| && IsImageEntry(entries[i]) && entries[i].value.text == s;
        if i > 0 {
          assert entries[1..][i - 1] == entries[i];
        }
      }
    }
  }

  /** The `for (const [key, value] of formData.entries())` loop that pushes each image. */
  method CollectImagesLoop(entries: seq<FormEntry>) returns (images: seq<string>)
    ensures images == CollectImages(entries)
    ensures |images| <= |entries|
  {
    images := [];
    var i := 0;
    while i < |entries|
      invariant 0 <= i <= |entries|
      invariant images == CollectImages(entries[..i])
      invariant |images| <= i
    {
      CollectImagesAppend(entries[..i], entries[i]);
      assert entries[..i + 1] == entries[..i] + [entries[i]];
      if IsImageEntry(entries[i]) {
        images := images + [entries[i].value.text];
      }
      i := i + 1;
    }
    assert entries[..i] == entries;
  }

  // ---------------------------------------------------------------------------
  // Validating the images
  // ---------------------------------------------------------------------------

  /** Why one image is refused, if it is: processing failure, then size, then mime type. */
  function FaultOf(d: Option<Decoded>): (f: Option<ImageFault>)
    ensures f.None? <==> d.Some? && d.value.size <= MAX_FILE_SIZE && d.value.mimeType in ALLOWED_MIME_TYPES
    ensures f == Some(Unreadable) <==> d.None?
    ensures f == Some(TooLarge) <==> d.Some? && d.value.size > MAX_FILE_SIZE
    ensures f == Some(Unsupported) ==> d.value.size <= MAX_FILE_SIZE
  {
    if d.None? then Some(Unreadable)
    else if d.value.size > MAX_FILE_SIZE then Some(TooLarge)
    else if d.value.mimeType !in ALLOWED_MIME_TYPES then Some(Unsupported)
    else None
  }

  /**
    `processBase64Data` applied to each collected image, in order. Processing
    is pure, so processing every image first and then scanning the results
    reaches what the route's loop reaches one image at a time.
   */
  function ProcessAll(images: seq<string>, decodedLength: string -> nat): (ds: seq<Option<Decoded>>)
    ensures |ds| == |images|
    ensures forall j :: 0 <= j < |images| ==> ds[j] == ProcessBase64(images[j], decodedLength)
  {
    seq(|images|, j requires 0 <= j < |images| => ProcessBase64(images[j], decodedLength))
  }

  /** The sum of the sizes, accumulated front to back as `totalSize` is. */
  function TotalSize(files: seq<Decoded>): nat
    decreases |files|
  {
    if |files| == 0 then 0 else TotalSize(files[..|files| - 1]) + files[|files| - 1].size
  }

  datatype ScanResult = AllPassed(files: seq<Decoded>) | FirstFault(index: nat, fault: ImageFault)

  /** Each processed image in turn: the first refused one stops the scan. */
  function Scan(ds: seq<Option<Decoded>>): (r: ScanResult)
    ensures r.FirstFault? ==> 1 <= r.index <= |ds|
    ensures r.AllPassed? ==> |r.files| == |ds|
    ensures r.AllPassed? ==> forall k :: 0 <= k < |r.files| ==>
              r.files[k].size <= MAX_FILE_SIZE && r.files[k].mimeType in ALLOWED_MIME_TYPES
    decreases |ds|
  {
    if |ds| == 0 then AllPassed([])
    else
      match FaultOf(ds[0])
      case Some(f) => FirstFault(1, f)
      case None =>
        match Scan(ds[1..])
        case AllPassed(files) => AllPassed([ds[0].value] + files)
        case FirstFault(k, f) => FirstFault(k + 1, f)
  }

  datatype ImagesVerdict = Rejected(index: nat, fault: ImageFault) | OverTotal | Accepted(files: seq<Decoded>)

  /** The per-image checks, then the total size, which only images that all passed reach. */
  function ValidateImages(ds: seq<Option<Decoded>>): (v: ImagesVerdict)
    ensures v.Rejected? ==> 1 <= v.index <= |ds|
    ensures v.Accepted? ==> |v.files| == |ds| && TotalSize(v.files) <= MAX_TOTAL_SIZE
    ensures v.Accepted? ==> forall k :: 0 <= k < |v.files| ==>
              v.files[k].size <= MAX_FILE_SIZE && v.files[k].mimeType in ALLOWED_MIME_TYPES
  {
    match Scan(ds)
    case FirstFault(k, f) => Rejected(k, f)
    case AllPassed(files) => if TotalSize(files) > MAX_TOTAL_SIZE then OverTotal else Accepted(files)
  }

  /**
    Lemma: the scan reports the 1-based index of the first refused image and
    its fault; if none is refused it yields every processed image, in order.
   */
  lemma {:induction false} ScanReportsFirstFault(ds: seq<Option<Decoded>>)
    ensures match Scan(ds)
            case FirstFault(k, f) =>
              && 1 <= k <= |ds|
              && FaultOf(ds[k - 1]) == Some(f)
              && forall j :: 0 <= j < k - 1 ==> FaultOf(ds[j]).None?
            case AllPassed(files) =>
              && |files| == |ds|
              && forall j :: 0 <= j < |ds| ==> FaultOf(ds[j]).None? && ds[j] == Some(files[j])
    decreases |ds|
  {
    if |ds| > 0 && FaultOf(ds[0]).None? {
      ScanReportsFirstFault(ds[1..]);
      forall j | 1 <= j < |ds|
        ensures ds[j] == ds[1..][j - 1]
      {
      }
    }
  }

  /** Lemma: `Scan` returns a fault exactly when some image is refused. */
  lemma ScanFaultsIffSomeFault(ds: seq<Option<Decoded>>)
    ensures Scan(ds).FirstFault? <==> exists j :: 0 <= j < |ds| && FaultOf(ds[j]).Some?
  {
    ScanReportsFirstFault(ds);
  }

  /** Lemma: an image refused after only accepted ones is the one the verdict names. */
  lemma RejectedAtFirstFault(ds: seq<Option<Decoded>>, i: int, f: ImageFault)
    requires 0 <= i < |ds|
    requires forall j :: 0 <= j < i ==> FaultOf(ds[j]).None?
    requires FaultOf(ds[i]) == Some(f)
    ensures ValidateImages(ds) == Rejected(i + 1, f)
  {
    ScanReportsFirstFault(ds);
  }

  /** Lemma: when every image is accepted, the scan yields their processed forms. */
  lemma ScanPassesAll(ds: seq<Option<Decoded>>, files: seq<Decoded>)
    requires |files| == |ds|
    requires forall j :: 0 <= j < |ds| ==> FaultOf(ds[j]).None? && ds[j] == Some(files[j])
    ensures Scan(ds) == AllPassed(files)
  {
    ScanReportsFirstFault(ds);
    var scanned := Scan(ds);
    if scanned.AllPassed? {
      assert forall j :: 0 <= j < |files| ==> scanned.files[j] == files[j];
    }
  }

  /** Lemma: appending a file adds its size to the running total. */
  lemma TotalSizeAppend(files: seq<Decoded>, d: Decoded)
    ensures TotalSize(files + [d]) == TotalSize(files) + d.size
  {
    assert (files + [d])[..|files|] == files;
  }

  /**
    The `for` loop of the route with its running `totalSize`, over the images
    as processing leaves them: it stops at the first refused image.
   */
  method CheckImages(ds: seq<Option<Decoded>>) returns (v: ImagesVerdict)
    ensures v == ValidateImages(ds)
  {
    var files: seq<Decoded> := [];
    var totalSize: nat := 0;
    var i := 0;
    while i < |ds|
      invariant 0 <= i <= |ds|
      invariant |files| == i
      invariant forall j :: 0 <= j < i ==> FaultOf(ds[j]).None? && ds[j] == Some(files[j])
      invariant totalSize == TotalSize(files)
    {
      var d := ds[i];
      if d.None? {
        RejectedAtFirstFault(ds, i, Unreadable);
        return Rejected(i + 1, Unreadable);
      }
      if d.value.size > MAX_FILE_SIZE {
        RejectedAtFirstFault(ds, i, TooLarge);
        return Rejected(i + 1, TooLarge);
      }
      if d.value.mimeType !in ALLOWED_MIME_TYPES {
        RejectedAtFirstFault(ds, i, Unsupported);
        return Rejected(i + 1, Unsupported);
      }
      TotalSizeAppend(files, d.value);
      totalSize := totalSize + d.value.size;
      files := files + [d.value];
      i := i + 1;
    }
    ScanPassesAll(ds, files);
    if totalSize > MAX_TOTAL_SIZE {
      return OverTotal;
    }
    return Accepted(files);
  }

  // ---------------------------------------------------------------------------
  // Authentication and the whole pipeline
  // ---------------------------------------------------------------------------

  datatype AuthOutcome = Granted | Denied | CheckUnreachable

  /**
    `isAuthenticated`: a bearer token is compared with the secret and nothing
    else is asked; without a bearer header the check-auth reply decides.
    Returns the outcome and the calls made on the way.
   */
  function Authenticate(email: string, authorization: Option<string>, env: Env): (r: (AuthOutcome, seq<Effect>))
    ensures HasBearer(authorization) ==>
              && r.1 == []
              && r.0 != CheckUnreachable
              && (r.0 == Granted <==> Some(BearerToken(authorization.value)) == env.secret)
    ensures !HasBearer(authorization) ==>
              && r.1 == [CheckAuthCall(email)]
              && (r.0 == Granted <==> env.checkAuth == Some(true))
              && (r.0 == CheckUnreachable <==> env.checkAuth.None?)
    ensures HasBearer(authorization) && env.secret.None? ==> r.0 == Denied
  {
    if HasBearer(authorization) then
      (if Some(BearerToken(authorization.value)) == env.secret then Granted else Denied, [])
    else
      var outcome := match env.checkAuth
        case None => CheckUnreachable
        case Some(authenticated) => if authenticated then Granted else Denied;
      (outcome, [CheckAuthCall(email)])
  }

  /** The number of magic links issued. */
  function MagicLinks(effects: seq<Effect>): nat
    decreases |effects|
  {
    if |effects| == 0 then 0
    else (if effects[0].MagicLinkCall? then 1 else 0) + MagicLinks(effects[1..])
  }

  /** Lemma: the count of magic links over a concatenation is the sum of the counts. */
  lemma {:induction false} MagicLinksConcat(a: seq<Effect>, b: seq<Effect>)
    ensures MagicLinks(a + b) == MagicLinks(a) + MagicLinks(b)
    decreases |a|
  {
    if |a| > 0 {
      assert (a + b)[1..] == a[1..] + b;
      MagicLinksConcat(a[1..], b);
    } else {
      assert a + b == b;
    }
  }

  /** The route's `POST` handler. */
  function Upload(req: UploadRequest, env: Env): (r: GateResult)
    ensures !Present(req.email) ==> r == GateResult(EmailRequired, [])
    ensures MagicLinks(r.effects) == (if r.response.IsDenial() then 1 else 0)
    ensures r.response.Success() ==> exists files :: CloudUpload(files) in r.effects
    ensures r.response.ImageRejected? ==> forall e :: e in r.effects ==> !e.CloudUpload?
  {
    if !Present(req.email) then GateResult(EmailRequired, [])
    else
      var email := req.email.value;
      var images := CollectImages(req.entries);
      if |images| == 0 then GateResult(NoImages, [])
      else if |images| > MAX_IMAGES then GateResult(TooManyImages(|images|), [])
      else
        var (auth, asked) := Authenticate(email, req.authorization, env);
        assert MagicLinks(asked) == 0;
        match auth
        case CheckUnreachable => GateResult(ServerError, asked)
        case Denied =>
          MagicLinksConcat(asked, [MagicLinkCall(email)]);
          GateResult(if env.magicLinkOk then CheckEmail else AuthFailed, asked + [MagicLinkCall(email)])
        case Granted =>
          match ValidateImages(ProcessAll(images, env.decodedLength))
          case Rejected(k, f) => GateResult(ImageRejected(k, f), asked)
          case OverTotal => GateResult(TotalTooLarge, asked)
          case Accepted(files) =>
            MagicLinksConcat(asked, [CloudUpload(files)]);
            assert CloudUpload(files) in asked + [CloudUpload(files)];
            GateResult(if env.uploadOk then Uploaded(|files|) else ServerError, asked + [CloudUpload(files)])
  }

  // ---------------------------------------------------------------------------
  // Properties of the gate
  // ---------------------------------------------------------------------------

  /** The collected images of the request, each as `processBase64Data` leaves it. */
  function Processed(req: UploadRequest, env: Env): seq<Option<Decoded>> {
    ProcessAll(CollectImages(req.entries), env.decodedLength)
  }

  /** The request has an email and between one and three images, so it reaches authentication. */
  predicate ReachesAuth(req: UploadRequest) {
    Present(req.email) && 1 <= |CollectImages(req.entries)| <= MAX_IMAGES
  }

  /** Lemma: image-count errors come before authentication, so they make no call at all. */
  lemma CountCheckedBeforeAuth(req: UploadRequest, env: Env)
    requires Present(req.email)
    ensures |CollectImages(req.entries)| == 0 ==> Upload(req, env) == GateResult(NoImages, [])
    ensures |CollectImages(req.entries)| > MAX_IMAGES ==>
              Upload(req, env) == GateResult(TooManyImages(|CollectImages(req.entries)|), [])
  {
  }

  /** Lemma: the check-auth endpoint is consulted exactly when there is no bearer header. */
  lemma FreshnessOnlyWithoutBearer(req: UploadRequest, env: Env)
    requires Present(req.email)
    ensures CheckAuthCall(req.email.value) in Upload(req, env).effects <==>
              ReachesAuth(req) && !HasBearer(req.authorization)
  {
  }

  /**
    Lemma: with a bearer header, the request is refused as unauthenticated
    exactly when its token differs from the secret, and the check-auth reply
    plays no part.
   */
  lemma BearerComparedExactly(req: UploadRequest, env: Env, checkAuth: Option<bool>)
    requires ReachesAuth(req) && HasBearer(req.authorization)
    ensures Upload(req, env).response.IsDenial() <==> Some(BearerToken(req.authorization.value)) != env.secret
    ensures Upload(req, env) == Upload(req, env.(checkAuth := checkAuth))
  {
  }

  /**
    Lemma: a denied request issues exactly one magic link, as its last call,
    never gets to the images, and never reports success; `action` is
    `check_email` exactly when the link went out.
   */
  lemma DenialIssuesOneLink(req: UploadRequest, env: Env)
    requires Upload(req, env).response.IsDenial()
    ensures var r := Upload(req, env);
            && MagicLinks(r.effects) == 1
            && |r.effects| > 0 && r.effects[|r.effects| - 1] == MagicLinkCall(req.email.value)
            && (forall e :: e in r.effects ==> !e.CloudUpload?)
            && !r.response.Success()
            && (r.response.Action() == Some("check_email") <==> env.magicLinkOk)
  {
  }

  /**
    Lemma: an image error names the first refused image (1-based) and its
    first failing check; every image before it passed all checks.
   */
  lemma ImageErrorIsFirstFault(req: UploadRequest, env: Env)
    requires Upload(req, env).response.ImageRejected?
    ensures var ds := Processed(req, env);
            var k := Upload(req, env).response.index;
            && 1 <= k <= |CollectImages(req.entries)|
            && FaultOf(ds[k - 1]) == Some(Upload(req, env).response.fault)
            && forall j :: 0 <= j < k - 1 ==> FaultOf(ds[j]).None?
  {
    var ds := Processed(req, env);
    var r := Upload(req, env);
    assert ValidateImages(ds) == Rejected(r.response.index, r.response.fault);
    ScanReportsFirstFault(ds);
  }

  /** Lemma: the total-size error comes only once every image has passed its own checks. */
  lemma TotalCheckedLast(req: UploadRequest, env: Env)
    requires Upload(req, env).response.TotalTooLarge?
    ensures var ds := Processed(req, env);
            && (forall j :: 0 <= j < |ds| ==> FaultOf(ds[j]).None?)
            && Scan(ds).AllPassed?
            && TotalSize(Scan(ds).files) > MAX_TOTAL_SIZE
  {
    var ds := Processed(req, env);
    assert ValidateImages(ds) == OverTotal;
    assert Scan(ds).AllPassed?;
    ScanReportsFirstFault(ds);
  }

  /**
    Lemma: a request that is let in is uploaded exactly when every image
    passes its own checks, the sizes sum to at most 15 MiB, and the uploads
    resolve.
   */
  lemma UploadSucceedsIffAllPass(req: UploadRequest, env: Env)
    requires ReachesAuth(req)
    requires Authenticate(req.email.value, req.authorization, env).0 == Granted
    ensures var ds := Processed(req, env);
            Upload(req, env).response.Uploaded? <==>
              && (forall j :: 0 <= j < |ds| ==> FaultOf(ds[j]).None?)
              && Scan(ds).AllPassed?
              && TotalSize(Scan(ds).files) <= MAX_TOTAL_SIZE
              && env.uploadOk
  {
    var ds := Processed(req, env);
    ScanReportsFirstFault(ds);
    ScanFaultsIffSomeFault(ds);
  }

  /**
    Lemma: success needs a request that reached authentication and was let
    in, and it reports one file per collected image.
   */
  lemma UploadedOnlyWhenGranted(req: UploadRequest, env: Env)
    requires Upload(req, env).response.Uploaded?
    ensures ReachesAuth(req)
    ensures Authenticate(req.email.value, req.authorization, env).0 == Granted
    ensures Upload(req, env).response.count == |CollectImages(req.entries)|
  {
  }

  /** Lemma: a request that is let in with some refused image gets an image error, at that image or an earlier one. */
  lemma GrantedFaultyImageRejected(req: UploadRequest, env: Env, j: int)
    requires ReachesAuth(req)
    requires Authenticate(req.email.value, req.authorization, env).0 == Granted
    requires 0 <= j < |CollectImages(req.entries)| && FaultOf(Processed(req, env)[j]).Some?
    ensures Upload(req, env).response.ImageRejected?
    ensures Upload(req, env).response.index <= j + 1
  {
    var ds := Processed(req, env);
    ScanReportsFirstFault(ds);
    ScanFaultsIffSomeFault(ds);
  }

  /**
    Lemma: when the check-auth fetch rejects, the route answers 500 after
    that one call: no magic link goes out and no image is looked at.
   */
  lemma UnreachableCheckIs500(req: UploadRequest, env: Env)
    requires ReachesAuth(req) && !HasBearer(req.authorization) && env.checkAuth.None?
    ensures Upload(req, env) == GateResult(ServerError, [CheckAuthCall(req.email.value)])
    ensures Upload(req, env).response.Status() == 500
  {
  }

  /** Lemma: a request that is let in, whose images all pass but sum past 15 MiB, gets the total-size error and uploads nothing. */
  lemma OverTotalIsRejected(req: UploadRequest, env: Env)
    requires ReachesAuth(req)
    requires Authenticate(req.email.value, req.authorization, env).0 == Granted
    requires Scan(Processed(req, env)).AllPassed?
    requires TotalSize(Scan(Processed(req, env)).files) > MAX_TOTAL_SIZE
    ensures Upload(req, env).response == TotalTooLarge
    ensures forall e :: e in Upload(req, env).effects ==> !e.CloudUpload?
  {
  }

  /**
    Lemma: a request that is let in with images that pass and fit, whose
    upload fails, gets a 500 after the upload was attempted with every file.
   */
  lemma FailedUploadIs500(req: UploadRequest, env: Env)
    requires ReachesAuth(req)
    requires Authenticate(req.email.value, req.authorization, env).0 == Granted
    requires Scan(Processed(req, env)).AllPassed?
    requires TotalSize(Scan(Processed(req, env)).files) <= MAX_TOTAL_SIZE
    requires !env.uploadOk
    ensures Upload(req, env).response == ServerError
    ensures var effects := Upload(req, env).effects;
            |effects| > 0 && effects[|effects| - 1] == CloudUpload(Scan(Processed(req, env)).files)
  {
  }

  /**
    Lemma: Cloudinary is called, with exactly these files, iff the request
    reaches authentication, is let in, every image passes and yields these
    files, and their sizes sum to at most 15 MiB. Any earlier answer,
    an image error included, uploads nothing.
   */
  lemma UploadAttemptedIff(req: UploadRequest, env: Env, files: seq<Decoded>)
    ensures CloudUpload(files) in Upload(req, env).effects <==>
              && ReachesAuth(req)
              && Authenticate(req.email.value, req.authorization, env).0 == Granted
              && Scan(Processed(req, env)) == AllPassed(files)
              && TotalSize(files) <= MAX_TOTAL_SIZE
  {
  }
}

=== FILE: upload_helpers.dfy ===
/**
  The pure helpers of the shortcut upload route: the `CONFIG` limits,
  `sanitizeFilename`, and the header parsing of `processBase64Data`.
 */
module UploadHelpers {
  import opened Js

  const MAX_FILE_SIZE: nat := 5 * 1024 * 1024
  const MAX_TOTAL_SIZE: nat := 15 * 1024 * 1024
  const MAX_IMAGES: nat := 3
  const ALLOWED_MIME_TYPES: seq<string> := ["image/jpeg", "image/png", "image/gif", "image/webp"]
  const MAX_FILENAME: nat := 100

  // ---------------------------------------------------------------------------
  // sanitizeFilename
  // ---------------------------------------------------------------------------

  /** The characters the first filter keeps: `[a-zA-Z0-9\-.]`. */
  predicate IsFilenameChar(c: char) {
    ('a' <= c <= 'z') || ('A' <= c <= 'Z') || ('0' <= c <= '9') || c == '-' || c == '.'
  }

  /** The characters a sanitized name may hold: the kept ones and the `_` that replaces `..`. */
  predicate IsSafeChar(c: char) {
    IsFilenameChar(c) || c == '_'
  }

  /** `s` has no two dots in a row. */
  predicate NoDotPair(s: string) {
    forall i :: 0 <= i < |s| - 1 ==> !(s[i] == '.' && s[i + 1] == '.')
  }

  /** `.replace(/[^a-zA-Z0-9\-.]/g, '')` */
  function KeepFilenameChars(s: string): (r: string)
    ensures |r| <= |s|
    ensures forall i :: 0 <= i < |r| ==> IsFilenameChar(r[i])
    ensures forall c :: multiset(r)[c] == (if IsFilenameChar(c) then multiset(s)[c] else 0)
    ensures (forall i :: 0 <= i < |s| ==> IsFilenameChar(s[i])) ==> r == s
    decreases |s|
  {
    if |s| == 0 then s
    else
      var rest := KeepFilenameChars(s[1..]);
      assert s == [s[0]] + s[1..];
      assert multiset(s) == multiset{s[0]} + multiset(s[1..]);
      if IsFilenameChar(s[0]) then
        assert multiset([s[0]] + rest) == multiset{s[0]} + multiset(rest);
        [s[0]] + rest
      else rest
  }

  /** Lemma: the filter works character by character, so it distributes over concatenation and keeps order. */
  lemma {:induction false} KeepFilenameCharsConcat(a: string, b: string)
    ensures KeepFilenameChars(a + b) == KeepFilenameChars(a) + KeepFilenameChars(b)
    decreases |a|
  {
    if |a| == 0 {
      assert a + b == b;
    } else {
      assert (a + b)[0] == a[0];
      assert (a + b)[1..] == a[1..] + b;
      KeepFilenameCharsConcat(a[1..], b);
    }
  }

  /** The number of times `c` occurs in `s`. */
  function Occurrences(s: string, c: char): nat
    decreases |s|
  {
    if |s| == 0 then 0 else (if s[0] == c then 1 else 0) + Occurrences(s[1..], c)
  }

  /**
    `.replace(/\.\./g, '_')`: scanning left to right, each `..` becomes one `_`,
    so each `_` written uses up two dots.
   */
  function CollapseDotPairs(s: string): (r: string)
    ensures |r| <= |s|
    decreases |s|
  {
    if |s| >= 2 && s[0] == '.' && s[1] == '.' then
      "_" + CollapseDotPairs(s[2..])
    else if |s| == 0 then s
    else
      [s[0]] + CollapseDotPairs(s[1..])
  }

  /**
    Lemma: the collapse never loses an underscore, and it trades exactly two
    dots for each underscore it writes.
   */
  lemma {:induction false} CollapseCounts(s: string)
    ensures Occurrences(CollapseDotPairs(s), '_') >= Occurrences(s, '_')
    ensures Occurrences(CollapseDotPairs(s), '.') + 2 * Occurrences(CollapseDotPairs(s), '_')
         == Occurrences(s, '.') + 2 * Occurrences(s, '_')
    decreases |s|
  {
    if |s| >= 2 && s[0] == '.' && s[1] == '.' {
      var rest := CollapseDotPairs(s[2..]);
      CollapseCounts(s[2..]);
      CollapsePairStep(s);
      assert s[1..][1..] == s[2..];
      assert ("_" + rest)[1..] == rest;
    } else if |s| > 0 {
      var rest := CollapseDotPairs(s[1..]);
      CollapseCounts(s[1..]);
      CollapseCharStep(s);
      assert ([s[0]] + rest)[1..] == rest;
    }
  }

  /** `.substring(0, 100)` */
  function Truncate(s: string, n: nat): (r: string)
    ensures |r| <= n && StartsWith(s, r)
    ensures |s| <= n ==> r == s
    ensures |s| > n ==> |r| == n
  {
    if |s| <= n then s else s[..n]
  }

  /** `sanitizeFilename` */
  function SanitizeFilename(filename: string): (r: string)
    ensures |r| <= MAX_FILENAME
    ensures forall i :: 0 <= i < |r| ==> IsSafeChar(r[i])
    ensures NoDotPair(r)
  {
    var kept := KeepFilenameChars(filename);
    var collapsed := CollapseDotPairs(kept);
    CollapseKeepsSafe(kept);
    CollapseNoDotPair(kept);
    var r := Truncate(collapsed, MAX_FILENAME);
    assert forall i :: 0 <= i < |r| ==> r[i] == collapsed[i];
    r
  }

  /** `a + b` cannot hold a `..` that straddles the join. */
  predicate NoDotJoin(a: string, b: string) {
    |a| == 0 || |b| == 0 || a[|a| - 1] != '.' || b[0] != '.'
  }

  /**
    Lemma: the collapse works left to right, so it splits at any join that
    cannot form a `..`: every `_` stands where its own pair of dots stood.
   */
  lemma {:induction false} CollapseConcat(a: string, b: string)
    requires NoDotJoin(a, b)
    ensures CollapseDotPairs(a + b) == CollapseDotPairs(a) + CollapseDotPairs(b)
    decreases |a|, 1
  {
    if |a| == 0 {
      assert a + b == b;
    } else if |a| >= 2 && a[0] == '.' && a[1] == '.' {
      CollapseConcatPair(a, b);
    } else {
      CollapseConcatChar(a, b);
    }
  }

  /** The step of `CollapseConcat` where `a` starts with `..`. */
  lemma {:induction false} CollapseConcatPair(a: string, b: string)
    requires NoDotJoin(a, b) && |a| >= 2 && a[0] == '.' && a[1] == '.'
    ensures CollapseDotPairs(a + b) == CollapseDotPairs(a) + CollapseDotPairs(b)
    decreases |a|, 0
  {
    var ab := a + b;
    assert ab[0] == '.' && ab[1] == '.' && ab[2..] == a[2..] + b;
    assert NoDotJoin(a[2..], b) by {
      if |a[2..]| > 0 {
        assert a[2..][|a[2..]| - 1] == a[|a| - 1];
      }
    }
    CollapseConcat(a[2..], b);
    CollapsePairStep(ab);
    CollapsePairStep(a);
  }

  /** The step of `CollapseConcat` where `a` does not start with `..`. */
  lemma {:induction false} CollapseConcatChar(a: string, b: string)
    requires NoDotJoin(a, b) && |a| >= 1 && !(|a| >= 2 && a[0] == '.' && a[1] == '.')
    ensures CollapseDotPairs(a + b) == CollapseDotPairs(a) + CollapseDotPairs(b)
    decreases |a|, 0
  {
    var ab := a + b;
    var tail := a[1..];
    assert ab[0] == a[0];
    assert ab[1..] == tail + b;
    assert NoDotJoin(tail, b) by {
      if |tail| > 0 {
        assert tail[|tail| - 1] == a[|a| - 1];
      }
    }
    assert !(|ab| >= 2 && ab[0] == '.' && ab[1] == '.') by {
      if |a| >= 2 {
        assert ab[1] == a[1];
      } else if |b| > 0 {
        assert ab[1] == b[0];
      }
    }
    CollapseCharStep(ab);
    CollapseCharStep(a);
    CollapseConcat(tail, b);
    calc {
      CollapseDotPairs(ab);
      [a[0]] + CollapseDotPairs(tail + b);
      [a[0]] + (CollapseDotPairs(tail) + CollapseDotPairs(b));
      { ConcatAssoc([a[0]], CollapseDotPairs(tail), CollapseDotPairs(b)); }
      ([a[0]] + CollapseDotPairs(tail)) + CollapseDotPairs(b);
      CollapseDotPairs(a) + CollapseDotPairs(b);
    }
  }

  /** Concatenation is associative. */
  lemma ConcatAssoc(x: string, y: string, z: string)
    ensures x + (y + z) == (x + y) + z
  {
  }

  /** One unfolding of `CollapseDotPairs` at a leading `..`. */
  lemma CollapsePairStep(s: string)
    requires |s| >= 2 && s[0] == '.' && s[1] == '.'
    ensures CollapseDotPairs(s) == "_" + CollapseDotPairs(s[2..])
  {
  }

  /** One unfolding of `CollapseDotPairs` at a leading character that does not start `..`. */
  lemma CollapseCharStep(s: string)
    requires |s| >= 1 && !(|s| >= 2 && s[0] == '.' && s[1] == '.')
    ensures CollapseDotPairs(s) == [s[0]] + CollapseDotPairs(s[1..])
  {
  }

  /** `n` copies of `c`. */
  function Repeat(c: char, n: nat): (r: string)
    ensures |r| == n && forall i :: 0 <= i < n ==> r[i] == c
  {
    seq(n, i => c)
  }

  /** Lemma: a run of `k` dots becomes `k / 2` underscores followed by `k % 2` dots. */
  lemma {:induction false} CollapseDotRun(k: nat)
    ensures CollapseDotPairs(Repeat('.', k)) == Repeat('_', k / 2) + Repeat('.', k % 2)
    decreases k
  {
    var dots := Repeat('.', k);
    if k >= 2 {
      assert dots[2..] == Repeat('.', k - 2);
      CollapseDotRun(k - 2);
      assert Repeat('_', k / 2) == "_" + Repeat('_', (k - 2) / 2);
    } else if k == 1 {
      assert dots == ".";
      assert dots[1..] == "";
      assert Repeat('.', 1) == ".";
    } else {
      assert Repeat('_', 0) + Repeat('.', 0) == "";
    }
  }

  /** Lemma: collapsing keeps the count of every character other than `.` and `_`. */
  lemma {:induction false} CollapseKeepsOtherChars(s: string, c: char)
    requires c != '.' && c != '_'
    ensures Occurrences(CollapseDotPairs(s), c) == Occurrences(s, c)
    decreases |s|
  {
    if |s| >= 2 && s[0] == '.' && s[1] == '.' {
      CollapseKeepsOtherChars(s[2..], c);
      assert s[1..][1..] == s[2..];
      assert ("_" + CollapseDotPairs(s[2..]))[1..] == CollapseDotPairs(s[2..]);
    } else if |s| > 0 {
      CollapseKeepsOtherChars(s[1..], c);
      assert ([s[0]] + CollapseDotPairs(s[1..]))[1..] == CollapseDotPairs(s[1..]);
    }
  }

  /** Lemma: collapsing only ever writes characters of the input or `_`. */
  lemma {:induction false} CollapseKeepsSafe(s: string)
    requires forall i :: 0 <= i < |s| ==> IsSafeChar(s[i])
    ensures forall i :: 0 <= i < |CollapseDotPairs(s)| ==> IsSafeChar(CollapseDotPairs(s)[i])
    decreases |s|
  {
    if |s| >= 2 && s[0] == '.' && s[1] == '.' {
      CollapseKeepsSafe(s[2..]);
    } else if |s| > 0 {
      CollapseKeepsSafe(s[1..]);
    }
  }

  /** Lemma: after collapsing, no two dots are adjacent. */
  lemma {:induction false} CollapseNoDotPair(s: string)
    ensures NoDotPair(CollapseDotPairs(s))
    decreases |s|
  {
    var r := CollapseDotPairs(s);
    if |s| >= 2 && s[0] == '.' && s[1] == '.' {
      CollapseNoDotPair(s[2..]);
      assert r == "_" + CollapseDotPairs(s[2..]);
    } else if |s| > 0 {
      var rest := CollapseDotPairs(s[1..]);
      CollapseNoDotPair(s[1..]);
      assert r == [s[0]] + rest;
      assert s[0] == '.' && |rest| > 0 ==> rest[0] != '.';
    }
  }

  /** Lemma: a string without two dots in a row is left alone by the collapse. */
  lemma {:induction false} CollapseIdentity(s: string)
    requires NoDotPair(s)
    ensures CollapseDotPairs(s) == s
    decreases |s|
  {
    if |s| > 0 {
      assert NoDotPair(s[1..]) by {
        forall i | 0 <= i < |s[1..]| - 1 ensures !(s[1..][i] == '.' && s[1..][i + 1] == '.') {
          assert s[1..][i] == s[i + 1] && s[1..][i + 1] == s[i + 2];
        }
      }
      CollapseIdentity(s[1..]);
    }
  }

  /**
    Lemma: names already made of `[a-zA-Z0-9\-.]`, without `..` and at most 100
    characters long, are their own sanitized form.
   */
  lemma SanitizeFixpoint(s: string)
    requires |s| <= MAX_FILENAME && NoDotPair(s)
    requires forall i :: 0 <= i < |s| ==> IsFilenameChar(s[i])
    ensures SanitizeFilename(s) == s
  {
    CollapseIdentity(s);
  }

  // ---------------------------------------------------------------------------
  // processBase64Data
  // ---------------------------------------------------------------------------

  /** What `processBase64Data` returns, less the buffer: its mime type, extension and byte size. */
  datatype Decoded = Decoded(mimeType: string, extension: string, size: nat)

  /** The longest prefix of `s` without the character `c`. */
  function PrefixBefore(s: string, c: char): (r: string)
    ensures StartsWith(s, r) && c !in r
    ensures |r| < |s| ==> s[|r|] == c
    decreases |s|
  {
    if |s| == 0 || s[0] == c then "" else [s[0]] + PrefixBefore(s[1..], c)
  }

  /** A match of `/data:([^;]+)/` can start at `i`: `data:` there, followed by a character other than `;`. */
  predicate MimeMatchAt(header: string, i: int) {
    OccursAt(header, "data:", i) && i + 5 < |header| && header[i + 5] != ';'
  }

  /** The leftmost position where a match of `/data:([^;]+)/` starts, or -1. */
  function MimeMatchStart(header: string): (i: int)
    ensures i >= -1
    ensures i >= 0 ==> MimeMatchAt(header, i)
    ensures i >= 0 ==> forall j :: 0 <= j < i ==> !MimeMatchAt(header, j)
    ensures i == -1 ==> forall j :: 0 <= j < |header| ==> !MimeMatchAt(header, j)
    decreases |header|
  {
    if |header| == 0 then -1
    else if MimeMatchAt(header, 0) then 0
    else
      var k := MimeMatchStart(header[1..]);
      assert forall j :: 1 <= j < |header| ==> (MimeMatchAt(header, j) <==> MimeMatchAt(header[1..], j - 1)) by {
        forall j | 1 <= j < |header| {
          MimeMatchShift(header, j);
        }
      }
      if k < 0 then -1 else k + 1
  }

  /** Lemma: a match start at `j >= 1` in `header` is one at `j - 1` without its first character. */
  lemma MimeMatchShift(header: string, j: int)
    requires 1 <= j < |header|
    ensures MimeMatchAt(header, j) <==> MimeMatchAt(header[1..], j - 1)
  {
    if j + 5 <= |header| {
      OccursShift(header, "data:", j);
    }
  }

  /**
    `header.match(/data:([^;]+)/)?.[1]`: at the leftmost `data:` followed by
    a character other than `;`, the greedy run of such characters.
   */
  function MimeCapture(header: string): (r: Option<string>)
    ensures r.None? <==> forall i :: 0 <= i < |header| ==> !MimeMatchAt(header, i)
    ensures r.Some? ==> exists i :: && MimeMatchAt(header, i)
                                    && (forall j :: 0 <= j < i ==> !MimeMatchAt(header, j))
                                    && r.value == PrefixBefore(header[i + 5..], ';')
    ensures r.Some? ==> |r.value| > 0 && ';' !in r.value
  {
    var i := MimeMatchStart(header);
    if i < 0 then None
    else
      var m := PrefixBefore(header[i + 5..], ';');
      assert |m| > 0;
      Some(m)
  }

  /**
    `const [header, data] = s.split(',')`: the text before the first comma, and
    the text between the first and the second comma (undefined, here `None`,
    when there is no comma at all).
   */
  function SplitHeader(s: string): (r: (string, Option<string>))
    ensures StartsWith(s, r.0) && ',' !in r.0
    ensures r.1.None? <==> ',' !in s
    ensures r.1.Some? ==> StartsWith(s[|r.0| + 1..], r.1.value) && ',' !in r.1.value
    ensures |r.0| < |s| ==> s[|r.0|] == ','
    ensures r.1.Some? && |r.0| + 1 + |r.1.value| < |s| ==> s[|r.0| + 1 + |r.1.value|] == ','
  {
    var header := PrefixBefore(s, ',');
    if |header| == |s| then
      assert s == header;
      (header, None)
    else
      (header, Some(PrefixBefore(s[|header| + 1..], ',')))
  }

  /** The extension chosen by substring tests on the mime type, `.jpg` by default. */
  function ExtensionOf(mimeType: string): (e: string)
    ensures e in [".jpg", ".png", ".gif", ".webp"]
    ensures e == ".png" <==> Includes(mimeType, "png")
    ensures !Includes(mimeType, "png") && Includes(mimeType, "gif") ==> e == ".gif"
    ensures !Includes(mimeType, "png") && !Includes(mimeType, "gif") && Includes(mimeType, "webp") ==> e == ".webp"
    ensures e == ".jpg" <==> !Includes(mimeType, "png") && !Includes(mimeType, "gif") && !Includes(mimeType, "webp")
  {
    if Includes(mimeType, "png") then ".png"
    else if Includes(mimeType, "gif") then ".gif"
    else if Includes(mimeType, "webp") then ".webp"
    else ".jpg"
  }

  /**
    `processBase64Data(s)`. `decodedLength` stands for the byte length of
    `Buffer.from(data, 'base64')`; the result is `None` when the call throws,
    which happens when a data URL has no comma and `data` is undefined.
   */
  function ProcessBase64(s: string, decodedLength: string -> nat): Option<Decoded> {
    if StartsWith(s, "data:") then
      var (header, data) := SplitHeader(s);
      var mimeType := match MimeCapture(header) case Some(m) => m case None => "image/jpeg";
      if data.None? then None
      else Some(Decoded(mimeType, ExtensionOf(mimeType), decodedLength(data.value)))
    else
      Some(Decoded("image/jpeg", ".jpg", decodedLength(s)))
  }

  /**
    Lemma: processing fails exactly for a data URL without a comma. Otherwise
    the extension is the one the mime type selects, and for a data URL the
    size is that of the payload between the first and the second comma (or
    the end) and the mime type is the captured one, or `image/jpeg` when nothing is captured.
   */
  lemma ProcessBase64Spec(s: string, decodedLength: string -> nat)
    ensures var r := ProcessBase64(s, decodedLength);
            && (r.None? <==> StartsWith(s, "data:") && ',' !in s)
            && (r.Some? ==> r.value.extension == ExtensionOf(r.value.mimeType))
            && (r.Some? && StartsWith(s, "data:") ==> r.value.size == decodedLength(SplitHeader(s).1.value))
            && (r.Some? && StartsWith(s, "data:") ==>
                  || MimeCapture(SplitHeader(s).0) == Some(r.value.mimeType)
                  || (MimeCapture(SplitHeader(s).0).None? && r.value.mimeType == "image/jpeg"))
  {
    if !StartsWith(s, "data:") {
      JpegExtension();
    }
  }

  /** Lemma: raw base64 without a `data:` prefix is taken as JPEG and decoded whole. */
  lemma PlainBase64IsJpeg(s: string, decodedLength: string -> nat)
    requires !StartsWith(s, "data:")
    ensures ProcessBase64(s, decodedLength) == Some(Decoded("image/jpeg", ".jpg", decodedLength(s)))
  {
  }

  /** Lemma: a data URL without a comma cannot be processed. */
  lemma DataUrlWithoutComma(s: string, decodedLength: string -> nat)
    requires StartsWith(s, "data:") && ',' !in s
    ensures ProcessBase64(s, decodedLength).None?
  {
  }

  /**
    Lemma: for `data:<m>;...` or `data:<m>,...` with a non-empty `m` free of
    `;` and `,`, the mime type is exactly `m` and the size is that of the text
    between the first and the second comma (or the end).
   */
  lemma DataUrlMime(m: string, sep: char, rest: string, decodedLength: string -> nat)
    requires |m| > 0 && ';' !in m && ',' !in m
    requires sep == ';' || sep == ','
    requires ',' in [sep] + rest
    ensures var s := "data:" + m + [sep] + rest;
            && ProcessBase64(s, decodedLength).Some?
            && ProcessBase64(s, decodedLength).value.mimeType == m
            && ProcessBase64(s, decodedLength).value.size == decodedLength(SplitHeader(s).1.value)
  {
    var s := "data:" + m + [sep] + rest;
    DataUrlHeader(m, sep, rest);
    MimeOfHeader(SplitHeader(s).0, m);
  }

  /**
    Lemma: the header of `data:<m><sep>...` begins with `data:<m>`, and is
    followed there by `;` or ends; the data part exists.
   */
  lemma DataUrlHeader(m: string, sep: char, rest: string)
    requires |m| > 0 && ';' !in m && ',' !in m
    requires sep == ';' || sep == ','
    requires ',' in [sep] + rest
    ensures var s := "data:" + m + [sep] + rest;
            var h := SplitHeader(s).0;
            && StartsWith(s, "data:")
            && SplitHeader(s).1.Some?
            && |h| >= 5 + |m| && h[..5 + |m|] == "data:" + m
            && (|h| > 5 + |m| ==> h[5 + |m|] == ';')
  {
    var s := "data:" + m + [sep] + rest;
    assert s[..5] == "data:";
    var k :| 0 <= k < |[sep] + rest| && ([sep] + rest)[k] == ',';
    assert s[5 + |m| + k] == ',';
    assert s[..5 + |m|] == "data:" + m;
    PrefixBeforeLongerThan(s, ',', 5 + |m|);
    var h := PrefixBefore(s, ',');
    if |h| > 5 + |m| {
      assert h[5 + |m|] == s[5 + |m|] == sep;
    }
  }

  /** Lemma: a header that begins with `data:<m>` and continues, if at all, with `;` captures `m`. */
  lemma MimeOfHeader(h: string, m: string)
    requires |m| > 0 && ';' !in m
    requires |h| >= 5 + |m| && h[..5 + |m|] == "data:" + m
    requires |h| > 5 + |m| ==> h[5 + |m|] == ';'
    ensures MimeCapture(h) == Some(m)
  {
    assert h[..5] == h[..5 + |m|][..5];
    assert h[5] == m[0];
    assert MimeMatchAt(h, 0) by {
      assert h[0..5] == h[..5];
    }
    var t := h[5..];
    assert t[..|m|] == h[..5 + |m|][5..];
    PrefixBeforeExact(t, ';', m);
  }

  /** Lemma: when the first `k` characters of `s` avoid `c`, they all belong to the prefix before `c`. */
  lemma {:induction false} PrefixBeforeLongerThan(s: string, c: char, k: nat)
    requires k <= |s| && c !in s[..k]
    ensures |PrefixBefore(s, c)| >= k
    ensures s[..k] == PrefixBefore(s, c)[..k]
    decreases k
  {
    if k > 0 {
      assert s[0] == s[..k][0];
      assert c !in s[1..][..k - 1] by {
        assert s[1..][..k - 1] == s[..k][1..];
      }
      PrefixBeforeLongerThan(s[1..], c, k - 1);
    }
  }

  /** Lemma: the prefix before `c` of a string `m + [c'] + ...` that starts with `c`-free `m` followed by `c` is `m`. */
  lemma PrefixBeforeExact(s: string, c: char, m: string)
    requires StartsWith(s, m) && c !in m
    requires |m| < |s| ==> s[|m|] == c
    ensures PrefixBefore(s, c) == m
  {
    PrefixBeforeLongerThan(s, c, |m|);
  }

  /** Lemma: an extension other than the `.jpg` default names text that occurs in the mime type. */
  lemma ExtensionNamedInType(mimeType: string)
    ensures ExtensionOf(mimeType) != ".jpg" ==> Includes(mimeType, ExtensionOf(mimeType)[1..])
  {
    var e := ExtensionOf(mimeType);
    if e == ".png" {
      assert e[1..] == "png";
    } else if e == ".gif" {
      assert e[1..] == "gif";
    } else if e == ".webp" {
      assert e[1..] == "webp";
    }
  }

  /** Lemma: each allowed mime type gets its own extension. */
  lemma AllowedMimeExtensions()
    ensures ExtensionOf("image/jpeg") == ".jpg"
    ensures ExtensionOf("image/png") == ".png"
    ensures ExtensionOf("image/gif") == ".gif"
    ensures ExtensionOf("image/webp") == ".webp"
  {
    JpegExtension();
    PngExtension();
    GifExtension();
    WebpExtension();
  }

  lemma JpegExtension()
    ensures ExtensionOf("image/jpeg") == ".jpg"
  {
    JpegMentionsNoOther();
  }

  lemma JpegMentionsNoOther()
    ensures !Includes("image/jpeg", "png") && !Includes("image/jpeg", "gif") && !Includes("image/jpeg", "webp")
  {
    NamesNoOther("image/jpeg");
  }

  /** A type string without `n`, `f` or `w` mentions none of `png`, `gif` and `webp`. */
  lemma NamesNoOther(m: string)
    requires forall i :: 0 <= i < |m| ==> m[i] != 'n' && m[i] != 'f' && m[i] != 'w'
    ensures !Includes(m, "png") && !Includes(m, "gif") && !Includes(m, "webp")
  {
    NotIncludesMissingChar(m, "png", 'n');
    NotIncludesMissingChar(m, "gif", 'f');
    NotIncludesMissingChar(m, "webp", 'w');
  }

  lemma PngExtension()
    ensures ExtensionOf("image/png") == ".png"
  {
    IncludesAt("image/png", "png", 6);
  }

  lemma GifExtension()
    ensures ExtensionOf("image/gif") == ".gif"
  {
    var m := "image/gif";
    assert m[6..9] == "gif";
    NotIncludesMissingChar(m, "png", 'p');
    IncludesAt(m, "gif", 6);
  }

  lemma WebpExtension()
    ensures ExtensionOf("image/webp") == ".webp"
  {
    var m := "image/webp";
    assert m[6..10] == "webp";
    assert ExtensionOf(m) == ".webp" by {
      NoPngNoGifInWebp();
      IncludesAt(m, "webp", 6);
    }
  }

  lemma NoPngNoGifInWebp()
    ensures !Includes("image/webp", "png") && !Includes("image/webp", "gif")
  {
    NamesNeitherPngNorGif("image/webp");
  }

  /** A type string without `n` or `f` mentions neither `png` nor `gif`. */
  lemma NamesNeitherPngNorGif(m: string)
    requires forall i :: 0 <= i < |m| ==> m[i] != 'n' && m[i] != 'f'
    ensures !Includes(m, "png") && !Includes(m, "gif")
  {
    NotIncludesMissingChar(m, "png", 'n');
    NotIncludesMissingChar(m, "gif", 'f');
  }
}
